=== FILE: README.md ===
# Shelf booking and asset rules in Dafny

Shelf is an asset-tracking and booking application. This project models the
decision logic that sits on top of its database layer, with each database
read replaced by an in-memory value:

- the permission resolver (`hasPermission`, `validatePermission`);
- the four-stage booking reminder chain (checkout reminder, checkin
  reminder, overdue handler, overdue reminder) as a step function over a
  booking store;
- the asset-list filters of `getAssets` and `getAssetsFromView`:
  - the "hide unavailable" window filter and the missing-dates error;
  - page skip/take and the full-text search tokenizer;
  - the category, tag, location and team-member filters;
- the QR-reuse, category, location, tag, custodian and custom-field payload
  rules of `createAsset` and `updateAsset`;
- the kit and location change notes, single and in bulk;
- the booking-custodian overlay for checked-out assets;
- the kit picker of a booking: grouping, kit availability, selection
  toggling;
- the small derived-state functions of the bookings pages:
  - the status flags and the pagination bar;
  - the bookings loader, the status color map and the custodian column;
  - the status filter's search-param update;
- `getEnv`.

Each source file or component is one module. `Domain` holds what they
share: `Option`, `Result`, the booking and asset status enums, the
application error record `ShelfError`, and JavaScript's `String.trim`.
Times are integers in seconds. Every operation is a pure function; the
pagination bar's page list is a method with a loop.

## Model

| member | source | states |
|---|---|---|
| Domain.Trim | app/modules/asset/service.server.ts:2180 | the result is the infix of the input left after removing exactly its leading and trailing JavaScript whitespace: everything around it is whitespace and it neither starts nor ends with whitespace |
| Domain.TrimPadded | app/modules/asset/service.server.ts:2180 | whitespace padding around a text that neither starts nor ends with whitespace is removed exactly |
| Domain.TrimIdempotent | app/modules/asset/service.server.ts:2180 | trimming twice is trimming once |
| Permissions.ValidRoles | app/utils/permissions/permission.validator.server.ts:67-77 | the roles kept are exactly those whose table row lists the action for the entity; the list is non-empty iff some role grants it |
| Permissions.Decide | app/utils/permissions/permission.validator.server.ts:59-79 | OWNER or ADMIN allows everything; otherwise the check allows iff some role's table row for the entity contains the action |
| Permissions.HasPermission | app/utils/permissions/permission.validator.server.ts:37-88 | supplied roles are used as given; otherwise the membership is looked up, and a missing one fails with the 403 "User doesn't belong to organization" error wrapped in a Permission-labelled error |
| Permissions.ValidatePermission | app/utils/permissions/permission.validator.server.ts:90-103 | succeeds iff the check allows; a denial becomes the 403 "You have no permission to perform this action" error; a failing check passes its error on |
| Permissions.OwnerOrAdminAllowsEverything | app/utils/permissions/permission.validator.server.ts:59-65 | roles containing OWNER or ADMIN allow every entity and action |
| Permissions.RoleWithoutRowGrantsNothing | app/utils/permissions/permission.validator.server.ts:68-72 | a role with no table row grants nothing, and alone it allows nothing |
| Permissions.DecideMonotonic | app/utils/permissions/permission.validator.server.ts:59-79 | adding roles never turns an allow into a deny |
| Permissions.SelfServiceGrants | app/utils/permissions/permission.validator.server.ts:11-34 | SELF_SERVICE: asset read only; booking all four actions; template all but delete; every other entity nothing |
| Permissions.SelfServiceDeniedOnQr | app/utils/permissions/permission.validator.server.ts:19-25 | a SELF_SERVICE user may do nothing with QR codes or workspaces |
| BookingWorker.Recipient | app/modules/booking/worker.server.ts:38-39 | a reminder has a recipient only when the custodian user's email is present and non-empty |
| BookingWorker.CheckoutReminderStep | app/modules/booking/worker.server.ts:18-68 | the store is untouched; a missing booking sends nothing and schedules nothing; an email with the asset count goes out only with an email, `from` and `to`; the checkin reminder is scheduled at `to` − 1 hour iff `to` is set |
| BookingWorker.CheckinReminderStep | app/modules/booking/worker.server.ts:70-117 | as the checkout step, with the overdue handler scheduled at exactly `to` |
| BookingWorker.OverdueHandlerStep | app/modules/booking/worker.server.ts:119-145 | only an ONGOING booking changes, to OVERDUE, and no other booking changes; then the overdue reminder is scheduled at `to` + 1 hour iff `to` is set; otherwise nothing changes and nothing is scheduled |
| BookingWorker.OverdueReminderStep | app/modules/booking/worker.server.ts:147-182 | never schedules a job or changes the store; emails only an OVERDUE booking's custodian |
| BookingWorker.StepAdvancesChain | app/modules/booking/worker.server.ts:57-66 | every scheduled job is the next stage, at `to` shifted by a whole number of hours fixed by the stage; a failing mailer changes neither the store, the attempts nor the next job |
| BookingWorker.StepOnlyMarksOverdue | app/modules/booking/worker.server.ts:123-126 | a step changes at most one booking, and only from ONGOING to OVERDUE |
| BookingWorker.OverdueHandlerIdempotent | app/modules/booking/worker.server.ts:123-126 | running the overdue handler twice leaves the same store as once |
| BookingWorker.MissingBookingEndsChain | app/modules/booking/worker.server.ts:32-37 | for a missing booking every stage sends nothing and schedules nothing |
| BookingWorker.NoReturnDateNoSuccessor | app/modules/booking/worker.server.ts:58 | a booking without `to` never gets a successor job |
| BookingWorker.RunChain | app/modules/booking/worker.server.ts:16-184 | following the chain from a stage schedules at most as many jobs as stages remain |
| BookingWorker.OngoingBookingRunsFullChain | app/modules/booking/worker.server.ts:57-143 | an ONGOING booking with `to` = T gets jobs at T − 1 h, T and T + 1 h and ends OVERDUE |
| BookingWorker.NotOngoingStopsAtOverdueHandler | app/modules/booking/worker.server.ts:123-132 | a booking that is not ONGOING stops after the overdue handler, with the store unchanged |
| SearchTokens.Escape | app/modules/asset/service.server.ts:182 | every special character `()&\|!'<>` in the result follows a backslash; text without them is unchanged |
| SearchTokens.UnescapeEscape | app/modules/asset/service.server.ts:182 | escaping loses nothing: removing the added backslashes gives the input back |
| SearchTokens.DropSpaces | app/modules/asset/service.server.ts:184 | removes exactly a leading run of spaces |
| SearchTokens.NonSpacesDropSpaces | app/modules/asset/service.server.ts:184 | dropping leading spaces keeps every other character |
| SearchTokens.CollapseSpaces | app/modules/asset/service.server.ts:184 | the result has no two adjacent spaces and keeps the first and last character; with CollapseSpaced, every run of one or more spaces between words becomes exactly one space |
| SearchTokens.CollapseKeepsText | app/modules/asset/service.server.ts:184 | collapsing spaces keeps every non-space character in order |
| SearchTokens.CollapseIdentity | app/modules/asset/service.server.ts:184 | text with no double space is left as it is |
| SearchTokens.CollapseSpaced | app/modules/asset/service.server.ts:184 | space-free words separated by runs of one or more spaces collapse to the words joined by single spaces |
| SearchTokens.Split | app/modules/asset/service.server.ts:185 | `split` gives at least one piece, none containing the separator |
| SearchTokens.JoinSplit | app/modules/asset/service.server.ts:185 | joining the pieces of a split with the separator gives the string back |
| SearchTokens.SplitPrefix | app/modules/asset/service.server.ts:185 | a separator-free prefix glues onto the first piece |
| SearchTokens.SplitJoin | app/modules/asset/service.server.ts:185 | splitting a join of separator-free pieces gives the pieces back |
| SearchTokens.JoinWith | app/modules/asset/service.server.ts:188 | `join(sep)`: the empty list joins to ""; otherwise the result starts with the first piece and ends with the last |
| SearchTokens.JoinWithIsJoin | app/modules/asset/service.server.ts:188 | joining with a one-character separator string is the character join, the inverse of `split` |
| SearchTokens.SplitJoinWith | app/modules/asset/service.server.ts:185-188 | splitting a one-character-string join of separator-free pieces gives the pieces back |
| SearchTokens.TokensOf | app/modules/asset/service.server.ts:186 | one token per piece: the trimmed piece followed by `:*` |
| SearchTokens.Tokens | app/modules/asset/service.server.ts:180-188 | every token ends with `:*` and contains no space; with SpacedWordsBecomeTokens, words separated by runs of spaces give exactly one token per word |
| SearchTokens.TrimPiece | app/modules/asset/service.server.ts:186 | a trimmed piece still has no space |
| SearchTokens.TrimIsInfix | app/modules/asset/service.server.ts:186 | trimming adds no character |
| SearchTokens.PlainWordsBecomeTokens | app/modules/asset/service.server.ts:180-188 | words without specials or whitespace, joined by single spaces, give exactly one token per word, the word followed by `:*` |
| SearchTokens.PlainJoinFacts | app/modules/asset/service.server.ts:180-188 | such a joined text has no special character, no double space and no whitespace at its ends |
| SearchTokens.SpacedWordsBecomeTokens | app/modules/asset/service.server.ts:180-188 | plain words separated by runs of spaces, with any spaces before and after, give exactly one token per word, the word followed by `:*` |
| SearchTokens.SearchQuery | app/modules/asset/service.server.ts:180-188 | the query handed to the full-text index ends with the last token's `:*` |
| SearchTokens.PlainWordsQuery | app/modules/asset/service.server.ts:180-188 | single-spaced plain words give the query of their prefix tokens joined by ` & ` |
| SearchTokens.SpacedWordsQuery | app/modules/asset/service.server.ts:180-188 | plain words separated by runs of spaces, with any padding, give that same query |
| AssetFilters.FetchFailed | app/modules/asset/service.server.ts:597-604 | a fetch failure is an Assets-labelled error caused by the original one |
| AssetFilters.SkipOf | app/modules/asset/service.server.ts:422 | page 1 or below skips nothing; later pages skip a non-negative count |
| AssetFilters.TakeOf | app/modules/asset/service.server.ts:423 | `take` is always in 1..100: `perPage` when it is in range, 20 otherwise |
| AssetFilters.Slice | app/modules/asset/service.server.ts:534-536 | a page holds at most `take` assets, the ones starting at `skip` |
| AssetFilters.SkipIsPagesBefore | app/modules/asset/service.server.ts:422-423 | with `perPage` in 1..100, page n (n ≥ 1) skips exactly (n − 1) · `take` rows, the rows of the pages before it |
| AssetFilters.OversizedPerPageSkipsRows | app/modules/asset/service.server.ts:422-423 | with `perPage` above 100, page 2 skips `perPage` rows while a page holds 20, and each page starts `perPage` rows after the previous one, more than a page holds |
| AssetFilters.ConsecutivePagesAreContiguous | app/modules/asset/service.server.ts:422-423 | with an in-range `perPage`, page n + 1 starts where page n ends |
| AssetFilters.UnavailableStatusesExactly | app/modules/asset/service.server.ts:129-133 | the blocking booking statuses are exactly RESERVED, ONGOING and OVERDUE |
| AssetFilters.ContainmentImpliedByOverlap | app/modules/asset/service.server.ts:472-481 | for a booking whose `from` ≤ `to`, the containment disjunct adds nothing to the overlap disjunct |
| AssetFilters.Lower | app/modules/asset/service.server.ts:431 | lower-casing keeps the length and maps every character through the ASCII letter mapping, position by position |
| AssetFilters.LowerIdempotent | app/modules/asset/service.server.ts:431 | lower-casing twice is lower-casing once |
| AssetFilters.MatchingAssets | app/modules/asset/service.server.ts:388-605 | an asset is listed iff it belongs to the store and passes every filter, the category and team-member filters combined by the corrected conjunction (see Findings) |
| AssetFilters.FirstConflict | app/modules/asset/service.server.ts:561-587 | the booking shown with an asset is one that clashes with the window, and none is shown when none clashes |
| AssetFilters.GetAssets | app/modules/asset/service.server.ts:388-605 | `hideUnavailable` without both dates fails with "booking dates are needed to hide unavailable assets"; the result is Ok exactly when that does not apply and `skip` ≥ 0; the total counts every match of the corrected filter; the page holds exactly the matches in the `skip`/`take` window, in order, each paired with its first booking clashing with the window when both dates are given and with none otherwise; every error is Assets-labelled |
| AssetFilters.HideUnavailableKeepsExactlyBookable | app/modules/asset/service.server.ts:459-485 | with `hideUnavailable` and both dates, a listed asset is bookable, has no custody and no blocking booking in the window outside the exemptions; with no other filter, every such asset is listed |
| AssetFilters.MissingDatesFails | app/modules/asset/service.server.ts:486-497 | `hideUnavailable` with a missing date fails in both the table and the view variant, with the same error |
| AssetFilters.WindowListsOnlyBookable | app/modules/asset/service.server.ts:498-500 | once both dates are given, only assets available to book are listed |
| AssetFilters.OrFilterRefinesAsWritten | app/modules/asset/service.server.ts:518-530 | the corrected conjunction of the category and team-member filters implies the merged disjunction, and equals it when only one of the two is active |
| AssetFilters.OrFilterAsWrittenLetsOtherCategoryThrough | app/modules/asset/service.server.ts:440-457 | the merged disjunction lists an asset of a category that was not selected |
| AssetPayloads.QrPlanFor | app/modules/asset/service.server.ts:652-665 | the given QR is reused iff it exists, belongs to the organization and has no asset; otherwise a new code (version 0, correction "L") is created |
| AssetPayloads.QrNeverStolen | app/modules/asset/service.server.ts:652-665 | a linked or foreign QR is never taken over |
| AssetPayloads.FieldCreates | app/modules/asset/service.server.ts:726-744 | one `create` entry per set form value, in order; every set value with a field id gets its entry, every entry comes from the form, and a falsy field id yields the falsy entry |
| AssetPayloads.StoredValueId | app/modules/asset/service.server.ts:859-863 | the id of the asset's first stored value for the field, or "" when there is none |
| AssetPayloads.FieldUpserts | app/modules/asset/service.server.ts:857-869 | one upsert per set value, in order, keyed by the stored value's id |
| AssetPayloads.Present | app/modules/asset/service.server.ts:847-849 | keeps exactly the form values that are set, a value being set when it is present and not the empty string (`!!cf.value`) |
| AssetPayloads.PresentAppend | app/modules/asset/service.server.ts:847-849 | filtering keeps order: the set values of two lists in turn are those of the first then of the second |
| AssetPayloads.FieldDeletes | app/modules/asset/service.server.ts:851-853 | exactly the fields whose form value is missing or the empty string are deleted, one per such value |
| AssetPayloads.UpsertsAndDeletesPartition | app/modules/asset/service.server.ts:847-853 | each set value is upserted and not deleted for that value, each empty value deleted and not upserted, and upserts plus deletes number the form values |
| AssetPayloads.EmptyValueIsDeleted | app/modules/asset/service.server.ts:847-853 | a value sent as the empty string is deleted and not kept as a set value |
| AssetPayloads.CreateAssetData | app/modules/asset/service.server.ts:607-759 | the category connects only if given and not "uncategorized"; location, tags and custodian only if given; a custodian sets IN_CUSTODY; the custom fields are the set values |
| AssetPayloads.CategoryChangeFor | app/modules/asset/service.server.ts:786-803 | "uncategorized" disconnects the category, another id connects it, none keeps it |
| AssetPayloads.LocationChangeFor | app/modules/asset/service.server.ts:806-823 | a new location connects; clearing one that was set disconnects |
| AssetPayloads.UpdateAssetData | app/modules/asset/service.server.ts:761-934 | category and location changes as above; tags replace the old ones; the upserts are those of the set values and the deletes those of the empty ones, each set value upserted under its stored row and each empty one deleted; a location note is written iff the location changed |
| AssetPayloads.CreateAndUpdateAgreeOnCategory | app/modules/asset/service.server.ts:677-686 | the category `createAsset` connects is the one `updateAsset` (lines 786-803) connects for the same id; "uncategorized" is connected by neither |
| AssetPayloads.CreateAndUpdateAgreeOnLocation | app/modules/asset/service.server.ts:688-697 | the location `createAsset` connects is the one an update from no location (lines 806-823) connects, and that update writes a location note |
| ChangeNotes.KitNoteKindFor | app/modules/asset/service.server.ts:2184-2200 | change iff both kits exist with different ids; add iff only the new one exists; removal iff removing with no new kit |
| ChangeNotes.KitChangeNote | app/modules/asset/service.server.ts:2160-2221 | no note iff none of the three cases applies; a note is an UPDATE note of that asset and user whose text starts with the bold user name and the verb phrase of its kind, and ends with the link to the new kit, or to the current one (or "undefined") on removal |
| ChangeNotes.KitPhrasesDistinct | app/modules/asset/service.server.ts:2184-2204 | the three kinds of kit note have different verb phrases |
| ChangeNotes.KitNoteNamesItsKind | app/modules/asset/service.server.ts:2184-2204 | a written kit note carries the verb phrase of its own kind and of no other |
| ChangeNotes.SameKitWritesNoNote | app/modules/asset/service.server.ts:2184-2204 | moving an asset to the kit it is in writes no note |
| ChangeNotes.NoKitsWritesNoNote | app/modules/asset/service.server.ts:2184-2204 | with neither kit and no removal there is no note |
| ChangeNotes.LocationNoteKindFor | app/modules/asset/service.server.ts:1446-1461 | removal iff removing or no new location; otherwise update with a current location, set without |
| ChangeNotes.LocationChangeNote | app/modules/asset/service.server.ts:1426-1478 | a location change always writes an UPDATE note of that asset and user whose text starts with the bold user name and the verb phrase of its kind, and ends with the link to the new location, or to the current one (or "undefined") on removal |
| ChangeNotes.LocationPhrasesDistinct | app/modules/asset/service.server.ts:1446-1461 | the three kinds of location note have different verb phrases |
| ChangeNotes.LocationNoteNamesItsKind | app/modules/asset/service.server.ts:1446-1461 | a location note carries the verb phrase of its own kind and of no other |
| ChangeNotes.Touched | app/modules/asset/service.server.ts:1532-1540 | the assets noted in bulk are exactly those added or removed |
| ChangeNotes.BulkLocationNote | app/modules/asset/service.server.ts:1531-1549 | a removed asset gets the removal note linking its current location; any other the update note (it had a location) or the set note linking the new one |
| ChangeNotes.LocationNotesFor | app/modules/asset/service.server.ts:1532-1552 | one note per touched asset, in order: a removed asset's note says it was removed, any other's links the location |
| ChangeNotes.CreateBulkLocationChangeNotes | app/modules/asset/service.server.ts:1480-1561 | an unknown user fails with "User not found" inside the bulk error; otherwise one note per touched asset, a removed asset getting the removal note and any other a note linking the location |
| ChangeNotes.RemovedAssetGetsRemovalNote | app/modules/asset/service.server.ts:2127-2145 | a removed asset always gets a removal note |
| ChangeNotes.BulkKitNote | app/modules/asset/service.server.ts:2127-2145 | a removed asset gets the removal note; another gets a note linking the kit unless it already sits in it |
| ChangeNotes.Written | app/modules/asset/service.server.ts:2127-2145 | the notes written are exactly the notes of the assets that get one |
| ChangeNotes.KitNotesFor | app/modules/asset/service.server.ts:2127-2145 | per asset walked: a removed asset has its removal note; another has no note exactly when it already sits in the kit |
| ChangeNotes.WrittenRemovalNotes | app/modules/asset/service.server.ts:2127-2145 | walking the added then the removed assets writes every removed asset's note |
| ChangeNotes.WrittenAddedNotes | app/modules/asset/service.server.ts:2127-2145 | walking the added then the removed assets writes every note an added asset gets |
| ChangeNotes.WrittenNotesBelong | app/modules/asset/service.server.ts:2127-2145 | every note written belongs to an asset walked |
| ChangeNotes.CreateBulkKitChangeNotes | app/modules/asset/service.server.ts:2097-2158 | an unknown user fails with "User not found" inside the bulk error; otherwise every removed asset gets a removal note, every added asset not already in the kit gets its note, and every note comes from an added or removed asset |
| ChangeNotes.NewlyAddedNoteRule | app/modules/asset/service.server.ts:2127-2145 | an added asset gets no note iff it is already in the kit |
| BookingCustodians.CheckedOutIds | app/modules/asset/service.server.ts:1962-1964 | the ids collected are exactly those of checked-out assets |
| BookingCustodians.FirstActive | app/modules/asset/service.server.ts:1977-1982 | the booking used is the first ONGOING or OVERDUE one, if any |
| BookingCustodians.CustodyOf | app/modules/asset/service.server.ts:2009-2020 | the name is the first name, one space, the last name, with missing parts empty; the picture is the user's, an empty one becoming none |
| BookingCustodians.BookingCustody | app/modules/asset/service.server.ts:2002-2004 | a custody exists iff the asset has bookings whose first active one has a custodian user, and it is that user's custody |
| BookingCustodians.Overlay | app/modules/asset/service.server.ts:2001-2022 | assets whose id is collected get the booking custody; the rest keep theirs |
| BookingCustodians.WithBookingCustodians | app/modules/asset/service.server.ts:1957-2037 | the list keeps length, order, ids and statuses; checked-out assets show their booking custodian or none; assets not sharing an id with a checked-out one are unchanged |
| BookingCustodians.WithBookingCustodiansIdempotent | app/modules/asset/service.server.ts:1957-2037 | applying the overlay twice gives the same list as once |
| BookingCustodians.NoCheckedOutNoChange | app/modules/asset/service.server.ts:1966 | a list without checked-out assets comes back unchanged |
| KitPicker.Keys | app/components/assets/grouped-by-kit-assets.tsx:40 | each item's grouping key is its kit's id, or none |
| KitPicker.Distinct | app/components/assets/grouped-by-kit-assets.tsx:40 | the group keys are the item keys, each once |
| KitPicker.GroupOf | app/components/assets/grouped-by-kit-assets.tsx:40 | a group holds exactly the items with its key, and is non-empty for a key that occurs |
| KitPicker.Ids | app/components/assets/grouped-by-kit-assets.tsx:129 | the asset ids of a group, in order |
| KitPicker.KitBookings | app/components/assets/grouped-by-kit-assets.tsx:113-114 | only the bookings of the first asset that has any are consulted |
| KitPicker.KitUnavailable | app/components/assets/grouped-by-kit-assets.tsx:105-127 | a kit is unavailable when an asset is not AVAILABLE, or when those bookings hold a RESERVED, ONGOING or OVERDUE one and not the current booking |
| KitPicker.RowFor | app/components/assets/grouped-by-kit-assets.tsx:99-131 | a kit gets a row iff some item is in it; the row lists the kit's asset ids and its availability |
| KitPicker.RowsFor | app/components/assets/grouped-by-kit-assets.tsx:99-103 | the key of assets without a kit gives no row; every kit key gives its row |
| KitPicker.KitRows | app/components/assets/grouped-by-kit-assets.tsx:99-131 | every row is a kit's row; every item in a kit is listed in its kit's row; no kit has two rows |
| KitPicker.DistinctRows | app/components/assets/grouped-by-kit-assets.tsx:99 | distinct keys give rows of distinct kits |
| KitPicker.Without | app/components/assets/grouped-by-kit-assets.tsx:54 | `filter` keeps exactly the ids not being dropped |
| KitPicker.HandleSelection | app/components/assets/grouped-by-kit-assets.tsx:42-66 | deselecting drops every occurrence of the kit's assets, selecting appends them; the kit id is toggled |
| KitPicker.Click | app/components/assets/grouped-by-kit-assets.tsx:136-146 | clicking an unavailable kit changes nothing; otherwise it selects or deselects the kit and all its assets |
| KitPicker.WithoutDisjoint | app/components/assets/grouped-by-kit-assets.tsx:54 | filtering out ids that are absent keeps the list as it is |
| KitPicker.WithoutAppended | app/components/assets/grouped-by-kit-assets.tsx:54-57 | filtering out what was appended removes the whole appended part |
| KitPicker.WithoutAll | app/components/assets/grouped-by-kit-assets.tsx:54 | filtering out every element gives the empty list |
| KitPicker.ClickTwiceRestores | app/components/assets/grouped-by-kit-assets.tsx:52-65 | selecting then deselecting an available kit restores both lists when none of its assets was selected before |
| BookingStatusFlags.AnyNotBookable | app/hooks/use-booking-status.ts:17 | true iff some asset is not available to book |
| BookingStatusFlags.AnyCheckedOut | app/hooks/use-booking-status.ts:18 | true iff some asset is checked out |
| BookingStatusFlags.UseBookingStatus | app/hooks/use-booking-status.ts:12-58 | `hasAssets` iff the list is non-empty; `hasUnavailableAssets` iff some asset is not bookable or is checked out |
| BookingStatusFlags.StatusFlagsExclusive | app/hooks/use-booking-status.ts:22-46 | at most one status flag is set, and none exactly for a CANCELLED booking |
| BookingStatusFlags.StatusFlagMatchesStatus | app/hooks/use-booking-status.ts:22-46 | each of the six statuses sets its own flag |
| Pagination.PageNumbers | app/components/list/pagination/pagination.tsx:23-29 | the page list is exactly 1..totalPages in ascending order, empty when totalPages ≤ 0 |
| Pagination.CeilDiv | app/routes/_layout+/bookings._index.tsx:54 | `Math.ceil(n / d)`: the least multiple count that covers n |
| Pagination.NextDisabledFromLastPage | app/components/list/pagination/pagination.tsx:34 | with page count ceil(totalItems/perPage) > 1, next is disabled exactly on pages at or after the last |
| Pagination.LastPageDisablesNext | app/components/list/pagination/pagination.tsx:34 | on page ceil(totalItems/perPage), next is disabled |
| Pagination.PrevEnabledAfterFirstPage | app/components/list/pagination/pagination.tsx:33 | with several pages, previous is enabled exactly from page 2 on |
| BookingsIndex.TotalPages | app/routes/_layout+/bookings._index.tsx:54 | the page count is the ceiling of count over `perPage` for either sign of `perPage`, and undefined for a zero `perPage` |
| BookingsIndex.StatusesFilter | app/routes/_layout+/bookings._index.tsx:48-51 | a status filter is passed iff the status param is present and non-empty, as a one-element list |
| BookingsIndex.Decorate | app/routes/_layout+/bookings._index.tsx:65-86 | only an item with both dates is decorated; its display pieces contain no comma and join back, with commas, into the formatted dates, so they are the comma-separated parts (SplitJoin); nothing else changes |
| BookingsIndex.DecorateAll | app/routes/_layout+/bookings._index.tsx:65 | every item is decorated, in order |
| BookingsIndex.Loader | app/routes/_layout+/bookings._index.tsx:33-109 | `totalItems` is the number of bookings on the page, not the count; each item is its booking decorated, in order; the page count covers the count |
| BookingsIndex.CountedLoader | app/routes/_layout+/bookings._index.tsx:33-109 | the corrected loader: `totalItems` is the count of matching bookings; the items are the bookings decorated, in order; the page count covers the count |
| BookingsIndex.LoaderDisablesNextOnEveryPage | app/routes/_layout+/bookings._index.tsx:94 | as written, on any page n ≥ 1 holding at most `perPage` bookings, the pagination bar's test `page * perPage >= totalItems` holds, so next is disabled |
| BookingsIndex.LoaderHidesLaterPages | app/routes/_layout+/bookings._index.tsx:94 | when more bookings match than pages 1..n show, the as-written loader disables next on page n while the corrected loader enables it |
| BookingsIndex.LoaderPagesMatchPagination | app/routes/_layout+/bookings._index.tsx:54 | with the corrected loader (`totalItems` = the count) and more than one page, next is disabled exactly from the last page on |
| BookingsIndex.HasUnavailableAssets | app/routes/_layout+/bookings._index.tsx:184-186 | true iff some asset is not available to book or has custody |
| BookingsIndex.StatusColor | app/routes/_layout+/bookings._index.tsx:151-159 | every color is a `#` hex code; grey exactly for draft, archived and cancelled |
| BookingsIndex.StatusColorsDistinguishActive | app/routes/_layout+/bookings._index.tsx:151-159 | two statuses share a color only if both are draft, archived or cancelled |
| BookingsIndex.CustodianColumn | app/routes/_layout+/bookings._index.tsx:255-283 | shows the custodian user if any, with the user's picture when it is non-empty and the default picture when it is missing or empty, else the team member with the default picture, else nothing |
| StatusFilter.Get | app/components/booking/status-filter.tsx:13 | the value of the first pair with the name, none when there is no such pair |
| StatusFilter.Delete | app/components/booking/status-filter.tsx:19 | removes exactly the pairs with the name |
| StatusFilter.Set | app/components/booking/status-filter.tsx:22 | after `set`, the name reads back the value and no pair holds another value for it |
| StatusFilter.DeleteIdempotent | app/components/booking/status-filter.tsx:19 | deleting twice is deleting once |
| StatusFilter.SetKeepsOthers | app/components/booking/status-filter.tsx:22 | `set` leaves the pairs of every other name as they were, in order |
| StatusFilter.HandleValueChange | app/components/booking/status-filter.tsx:15-25 | "ALL" removes the status param, another value becomes it; every other param is kept in order |
| StatusFilter.Options | app/components/booking/status-filter.tsx:46 | the options are "ALL" followed by every booking status |
| StatusFilter.OptionsCoverStatuses | app/components/booking/status-filter.tsx:46 | every status is offered and "ALL" is not one of them |
| StatusFilter.DefaultValue | app/components/booking/status-filter.tsx:31 | the default is the current status, or "ALL" when it is absent or empty |
| StatusFilter.ChosenValueBecomesDefault | app/components/booking/status-filter.tsx:15-31 | after choosing a value, the filter shows that value |
| Env.Source | app/utils/env.ts:40 | the window env in the browser (an empty one when it is undefined), the process env on the server |
| Env.GetEnv | app/utils/env.ts:34-49 | a secret read in the browser yields ""; otherwise a missing or empty required variable fails with "<name> is not set", and the result is the looked-up value or undefined |
| Env.DefaultsAreSecretAndRequired | app/utils/env.ts:36 | without options a variable is hidden in the browser and mandatory on the server |
| Env.OptionsWithoutRequiredNeverFail | app/utils/env.ts:36-46 | an options object without `isRequired` makes the variable optional |
| Env.BrowserIgnoresProcessEnv | app/utils/env.ts:40 | in the browser the process env plays no part |

## Left out

- Database and scheduler I/O: every Prisma query, the job scheduler's persistence, at-least-once delivery and concurrent handler runs. Stores and lookups are in-memory maps, and a failing query other than the modelled lookups is not represented.
- BookingWorker.OverdueHandlerStep: Prisma's `update` throws, rather than returning null, when no ONGOING booking matches; the model only states that nothing changes and nothing is scheduled.
- `setHours` local-time and daylight-saving behaviour: times are integer seconds shifted by 3600.
- Email transport and the text of the email templates: only the recipient, subject and asset count are modelled, and a failing mailer is a flag.
- Intl date formatting in the bookings loader: the formatter is a function parameter.
- React rendering, `useMemo`, jotai atoms and navigation state: only the updater functions and the derived values are modelled.
- AssetFilters.SearchMatches: the view variant's Postgres full-text match is a parameter that is given the generated `tsquery` text; the table variant's `contains` with `mode: "insensitive"` lower-cases ASCII letters only.
- AssetFilters.GetAssets: a negative `skip`, which the database rejects, is a plain error; the `include` projection is reduced to the first clashing booking.
- AssetFilters.GetAssets: `skip` uses the raw `perPage` while `take` is clamped, so an out-of-range `perPage` skips a different number of assets than a page holds (AssetFilters.OversizedPerPageSkipsRows); the model keeps this as written.
- AssetFilters.Lower: only ASCII letters are lower-cased.
- The `.filter(Boolean)` of the search tokenizer is not modelled: every token ends with `:*`, so none is empty and the filter keeps them all.
- The `OrganizationRoles` enum is not part of this model; roles other than OWNER, ADMIN and SELF_SERVICE are one `Other` case with no table row.
- The schema default of an asset's status on create is left to the database (`status` is `None`).
- JavaScript's null and undefined are one `None`; where the text of a message depends on it ("undefined" for a missing kit or location, "null" for a missing name column) the rendered word is modelled.
- KitPicker.Distinct: group order is first appearance; `Object.values` would put integer-like kit ids first, in numeric order.
- `groupBy` is not part of this model; it is taken to collect items under their key in order.
- BookingCustodians.WithBookingCustodians: the contract states the unchanged case only for assets whose id no checked-out asset shares; the code overrides by id, which the overlay models.
- ChangeNotes.KitChangeNote: the whole message is built, but the contract states only its bold user name, its verb phrase and its closing kit link, not the asset name and "from" part in between; a failure of `createNote` is not modelled.
- ChangeNotes.LocationChangeNote: likewise only the bold user name, the verb phrase and the closing location link are stated, not the middle of the message.
- AssetFilters.MatchingAssets: lists by the corrected conjunction of the category and team-member filters, not by the code's merged `OR` (service.server.ts:518-530); OrFilterAsWritten models the merged `OR` and the Findings row shows the difference.
- AssetFilters.GetAssets: counts and pages the corrected filter's matches (through MatchingAssets), so when both "uncategorized" and a team member are selected it lists fewer assets than the code does.
- Pagination.PageNumbers: `totalPages` is an integer; JavaScript's NaN and Infinity page counts are not modelled there (they are `None` in BookingsIndex.TotalPages).

## Findings

| source | as written | input that shows it | evidently intended | confidence | as-written member | corrected member |
|---|---|---|---|---|---|---|
| app/modules/asset/service.server.ts:518-530 | the team-member filter spreads the category filter's `OR` (set when "uncategorized" is selected, lines 440-452) into its own `OR`, so the two filters are OR-ed | categories ["uncategorized"], team member "tm1", an asset in category "tools" in the custody of tm1: it is listed | an asset must match the category filter and the team-member filter | medium, not executed | AssetFilters.OrFilterAsWrittenLetsOtherCategoryThrough | AssetFilters.OrFilterRefinesAsWritten |
| app/routes/_layout+/bookings._index.tsx:94 | the loader hands the pagination bar `totalItems: bookings.length`, the length of the current page, and the bar disables next when `page * perPage >= totalItems` (app/components/list/pagination/pagination.tsx:34) | 50 matching bookings, `perPage` 10, page 1 holding 10 bookings: 5 pages, yet next is disabled | `totalItems` is the number of matching bookings, as `totalPages` already uses | medium, not executed | BookingsIndex.LoaderHidesLaterPages | BookingsIndex.LoaderPagesMatchPagination |

=== FILE: asset_filters.dfy ===
/**
  Asset listing: which assets of an organization a page shows, for the
  asset table (`getAssets`) and for the asset search view
  (`getAssetsFromView`). Each filter of the listing query is stated as a
  predicate over an asset record; the database's `createdAt desc` order is
  the order of the input sequence.
 */
module AssetFilters {
  import opened Domain
  import SearchTokens

  /** The booking statuses that make an asset unavailable for another booking. */
  const UnavailableBookingStatuses: seq<BookingStatus> := [RESERVED, ONGOING, OVERDUE]

  datatype AssetBooking = AssetBooking(
    id: Id,
    status: BookingStatus,
    from: Option<int>,
    to: Option<int>,
    custodianTeamMemberId: Option<Id>,
    custodianUserId: Option<Id>)

  /** A custody row: the team member holding the asset, and that member's user if any. */
  datatype Custody = Custody(teamMemberId: Id, custodianUserId: Option<Id>)

  datatype AssetRecord = AssetRecord(
    id: Id,
    organizationId: Id,
    title: string,
    status: AssetStatus,
    availableToBook: bool,
    categoryId: Option<Id>,
    tagIds: seq<Id>,
    locationId: Option<Id>,
    custody: Option<Custody>,
    bookings: seq<AssetBooking>)

  /** Which of the two listing functions runs. */
  datatype Source = AssetTable | SearchView

  /**
    The listing parameters. `None`, `false` and the empty list stand for a
    parameter that is absent (or falsy, which the code treats alike).
   */
  datatype AssetQuery = AssetQuery(
    organizationId: Id,
    page: int,
    perPage: Option<int>,
    search: Option<string>,
    categoriesIds: seq<Id>,
    tagsIds: seq<Id>,
    status: Option<AssetStatus>,
    hideUnavailable: bool,
    bookingFrom: Option<int>,
    bookingTo: Option<int>,
    unhideAssetsBookingIds: seq<Id>,
    locationIds: seq<Id>,
    teamMemberIds: seq<Id>)

  const MissingDatesError: ShelfError :=
    ShelfError("booking dates are needed to hide unavailable assets", None, AssetsLabel, NoCause)

  /** The database refusing the query (a negative `skip`); its own message is not modelled. */
  const QueryRejected: ShelfError := ShelfError("query rejected by the database", None, "Database", NoCause)

  /** Every failure inside a listing function is rethrown wrapped in this error. */
  function FetchFailed(source: Source, cause: ShelfError): (e: ShelfError)
    ensures e.errorLabel == AssetsLabel && e.cause == CausedBy(cause)
  {
    var message := match source
      case AssetTable => "Something went wrong while fetching assets"
      case SearchView => "Something went wrong while fetching assets from view";
    ShelfError(message, None, AssetsLabel, CausedBy(cause))
  }

  // ---------------------------------------------------------------------
  // Paging

  /** `perPage` defaults to 8 when the caller passes none. */
  function PerPage(q: AssetQuery): int {
    q.perPage.GetOr(8)
  }

  /** Rows skipped: `(page - 1) * perPage` after the first page, none before it. */
  function SkipOf(page: int, perPage: int): (skip: int)
    ensures page <= 1 ==> skip == 0
    ensures page > 1 && perPage >= 0 ==> skip >= 0
  {
    if page > 1 then (page - 1) * perPage else 0
  }

  /** Rows taken: `perPage` when it is within 1..100, otherwise 20. */
  function TakeOf(perPage: int): (take: int)
    ensures 1 <= take <= 100
    ensures take == perPage || take == 20
    ensures take == 20 <== !(1 <= perPage <= 100)
  {
    if 1 <= perPage <= 100 then perPage else 20
  }

  /** With `perPage` within 1..100, page `n` skips exactly the rows of the `n - 1` pages before it. */
  lemma SkipIsPagesBefore(page: int, perPage: int)
    requires page >= 1 && 1 <= perPage <= 100
    ensures SkipOf(page, perPage) == (page - 1) * TakeOf(perPage)
  {
    if page == 1 {
      assert (page - 1) * TakeOf(perPage) == 0;
    }
  }

  /**
    Above 100, `skip` still uses the raw `perPage` while `take` falls back
    to 20: from page 1 on, each page starts `perPage` rows after the one
    before, so the rows between a page's last and the next page's first
    are never listed.
   */
  lemma OversizedPerPageSkipsRows(page: int, perPage: int)
    requires page >= 1 && perPage > 100
    ensures SkipOf(2, perPage) != TakeOf(perPage)
    ensures SkipOf(page + 1, perPage) - SkipOf(page, perPage) == perPage > TakeOf(perPage)
  {
    if page > 1 {
      assert page * perPage - (page - 1) * perPage == perPage;
    }
  }

  /** The rows the database returns for `skip` and `take`. */
  function Slice<T>(xs: seq<T>, skip: nat, take: nat): (r: seq<T>)
    ensures |r| <= take
    ensures skip < |xs| ==> r == xs[skip..if skip + take <= |xs| then skip + take else |xs|]
    ensures skip >= |xs| ==> r == []
  {
    if skip >= |xs| then [] else if skip + take <= |xs| then xs[skip..skip + take] else xs[skip..]
  }

  /**
    With `perPage` within 1..100, page `n + 1` starts exactly where page
    `n` stops: the two together are one contiguous run of the matches.
   */
  lemma ConsecutivePagesAreContiguous<T>(xs: seq<T>, page: int, perPage: int)
    requires page >= 1 && 1 <= perPage <= 100
    ensures var a := SkipOf(page, perPage);
            var b := SkipOf(page + 1, perPage);
            var hi := if a + 2 * perPage <= |xs| then a + 2 * perPage else |xs|;
            a >= 0 && b == a + TakeOf(perPage) &&
            Slice(xs, a, TakeOf(perPage)) + Slice(xs, b, TakeOf(perPage)) == (if a < |xs| then xs[a..hi] else [])
  {
    var a := SkipOf(page, perPage);
    var b := SkipOf(page + 1, perPage);
    assert a >= 0 && b == a + perPage by {
      assert page * perPage == (page - 1) * perPage + perPage;
    }
    assert TakeOf(perPage) == perPage;
    var hi := if a + 2 * perPage <= |xs| then a + 2 * perPage else |xs|;
    if a >= |xs| {
      assert Slice(xs, a, perPage) == [] && Slice(xs, b, perPage) == [];
    } else if b >= |xs| {
      assert Slice(xs, a, perPage) == xs[a..hi];
      assert Slice(xs, b, perPage) == [];
    } else {
      assert Slice(xs, a, perPage) == xs[a..b];
      assert Slice(xs, b, perPage) == xs[b..hi];
      assert xs[a..b] + xs[b..hi] == xs[a..hi];
    }
  }

  // ---------------------------------------------------------------------
  // Availability in a booking window

  /** The `[bookingFrom, bookingTo]` window, when both ends are given. */
  function Window(q: AssetQuery): Option<(int, int)> {
    if q.bookingFrom.Some? && q.bookingTo.Some? then Some((q.bookingFrom.value, q.bookingTo.value)) else None
  }

  /**
    The two date disjuncts of the query: the existing booking intersects
    the window (inclusive bounds), or lies inside it. A booking without a
    date matches neither.
   */
  predicate DatesClash(b: AssetBooking, from: int, to: int) {
    && b.from.Some? && b.to.Some?
    && ((b.from.value <= to && b.to.value >= from) || (b.from.value >= from && b.to.value <= to))
  }

  /** A booking in a blocking status whose dates clash with the window. */
  predicate Conflicts(b: AssetBooking, from: int, to: int) {
    b.status in UnavailableBookingStatuses && DatesClash(b, from, to)
  }

  /** A conflicting booking that is not one of the exempted bookings. */
  predicate Blocks(b: AssetBooking, from: int, to: int, exempt: seq<Id>) {
    b.id !in exempt && Conflicts(b, from, to)
  }

  predicate HasBlockingBooking(a: AssetRecord, from: int, to: int, exempt: seq<Id>) {
    exists i :: 0 <= i < |a.bookings| && Blocks(a.bookings[i], from, to, exempt)
  }

  /** Exactly RESERVED, ONGOING and OVERDUE bookings can block an asset. */
  lemma UnavailableStatusesExactly(s: BookingStatus)
    ensures s in UnavailableBookingStatuses <==> s == RESERVED || s == ONGOING || s == OVERDUE
  {
  }

  /**
    The containment disjunct adds nothing for a well-formed booking
    (`from <= to`): it is implied by the inclusive-overlap disjunct.
   */
  lemma ContainmentImpliedByOverlap(b: AssetBooking, from: int, to: int)
    requires b.from.Some? && b.to.Some? && b.from.value <= b.to.value
    ensures DatesClash(b, from, to) <==> b.from.value <= to && b.to.value >= from
  {
  }

  // ---------------------------------------------------------------------
  // The remaining filters

  /** A non-empty search string; `""` is falsy and searches nothing. */
  predicate HasSearch(q: AssetQuery) {
    q.search.Some? && q.search.value != ""
  }

  function LowerChar(c: char): char {
    if 'A' <= c <= 'Z' then (c as int + 32) as char else c
  }

  /** `toLowerCase`, on ASCII letters. */
  function Lower(s: string): (r: string)
    ensures |r| == |s|
    ensures forall i :: 0 <= i < |s| ==> r[i] == LowerChar(s[i])
  {
    if |s| == 0 then "" else [LowerChar(s[0])] + Lower(s[1..])
  }

  /** Lower-casing twice is lower-casing once, so the search text may be lowered before or after trimming. */
  lemma LowerIdempotent(s: string)
    ensures Lower(Lower(s)) == Lower(s)
  {
    assert forall i :: 0 <= i < |s| ==> LowerChar(LowerChar(s[i])) == LowerChar(s[i]);
  }

  predicate IsInfix(needle: string, hay: string) {
    exists i :: 0 <= i <= |hay| && needle <= hay[i..]
  }

  /**
    The search filter. The table matches titles that contain the trimmed,
    lower-cased text, ignoring case; the view hands the built token string
    to the database's full-text index, given here as `fullText`.
   */
  predicate SearchMatches(source: Source, search: string, a: AssetRecord,
                          fullText: (AssetRecord, string) -> bool) {
    match source
    case AssetTable => IsInfix(Lower(Trim(Lower(search))), Lower(a.title))
    case SearchView => fullText(a, SearchTokens.SearchQuery(search))
  }

  /** One alternative of the query's top-level `OR` list. */
  datatype Disjunct =
    | CategoryIn(ids: seq<Id>)
    | CategoryNull
    | CustodyTeamMemberIn(ids: seq<Id>)
    | CustodyUserIn(ids: seq<Id>)
    | BookingTeamMemberIn(ids: seq<Id>, activeOnly: bool)
    | BookingUserIn(ids: seq<Id>, activeOnly: bool)

  /** ONGOING and OVERDUE are the states in which a booking's assets are in custody. */
  predicate ActiveBooking(b: AssetBooking) {
    b.status == ONGOING || b.status == OVERDUE
  }

  predicate Holds(d: Disjunct, a: AssetRecord) {
    match d
    case CategoryIn(ids) => a.categoryId.Some? && a.categoryId.value in ids
    case CategoryNull => a.categoryId.None?
    case CustodyTeamMemberIn(ids) => a.custody.Some? && a.custody.value.teamMemberId in ids
    case CustodyUserIn(ids) =>
      a.custody.Some? && a.custody.value.custodianUserId.Some? && a.custody.value.custodianUserId.value in ids
    case BookingTeamMemberIn(ids, activeOnly) =>
      exists i :: 0 <= i < |a.bookings| && (activeOnly ==> ActiveBooking(a.bookings[i])) &&
                  a.bookings[i].custodianTeamMemberId.Some? && a.bookings[i].custodianTeamMemberId.value in ids
    case BookingUserIn(ids, activeOnly) =>
      exists i :: 0 <= i < |a.bookings| && (activeOnly ==> ActiveBooking(a.bookings[i])) &&
                  a.bookings[i].custodianUserId.Some? && a.bookings[i].custodianUserId.value in ids
  }

  /** A list of alternatives holds when it is empty or one of them holds. */
  predicate AnyHolds(ds: seq<Disjunct>, a: AssetRecord) {
    |ds| == 0 || exists i :: 0 <= i < |ds| && Holds(ds[i], a)
  }

  /** The category alternatives: only when "uncategorized" is among the selected categories. */
  function CategoryDisjuncts(q: AssetQuery): seq<Disjunct> {
    if |q.categoriesIds| > 0 && UncategorizedId in q.categoriesIds
    then [CategoryIn(q.categoriesIds), CategoryNull]
    else []
  }

  /** The plain category filter, used when "uncategorized" is not selected. */
  predicate CategoryMatches(q: AssetQuery, a: AssetRecord) {
    |q.categoriesIds| > 0 && UncategorizedId !in q.categoriesIds ==>
      a.categoryId.Some? && a.categoryId.value in q.categoriesIds
  }

  /**
    The custodian alternatives. The view only counts bookings that are
    ONGOING or OVERDUE; the table counts bookings in any status.
   */
  function TeamMemberDisjuncts(source: Source, q: AssetQuery): seq<Disjunct> {
    var ids := q.teamMemberIds;
    if |ids| == 0 then []
    else match source
      case AssetTable =>
        [CustodyTeamMemberIn(ids), CustodyUserIn(ids), BookingTeamMemberIn(ids, false), BookingUserIn(ids, false)]
      case SearchView =>
        [CustodyTeamMemberIn(ids), BookingTeamMemberIn(ids, true), BookingUserIn(ids, true), CustodyUserIn(ids)]
  }

  /**
    As the code builds it: the custodian filter spreads the category
    alternatives into its own `OR` list, so the two filters end up OR-ed.
   */
  predicate OrFilterAsWritten(source: Source, q: AssetQuery, a: AssetRecord) {
    AnyHolds(CategoryDisjuncts(q) + TeamMemberDisjuncts(source, q), a)
  }

  /** As intended: the category filter and the custodian filter both apply. */
  predicate OrFilter(source: Source, q: AssetQuery, a: AssetRecord) {
    AnyHolds(CategoryDisjuncts(q), a) && AnyHolds(TeamMemberDisjuncts(source, q), a)
  }

  /** The "hide unavailable" filter. */
  predicate AvailabilityMatches(q: AssetQuery, a: AssetRecord) {
    q.hideUnavailable ==>
      && a.availableToBook
      && a.custody.None?
      && (Window(q).Some? ==>
            !HasBlockingBooking(a, Window(q).value.0, Window(q).value.1, q.unhideAssetsBookingIds))
  }

  /** Every filter of the listing query but the top-level `OR` list. */
  predicate BaseMatches(source: Source, q: AssetQuery, a: AssetRecord, fullText: (AssetRecord, string) -> bool) {
    && a.organizationId == q.organizationId
    && (HasSearch(q) ==> SearchMatches(source, q.search.value, a, fullText))
    && (q.status.Some? ==> a.status == q.status.value)
    && CategoryMatches(q, a)
    && AvailabilityMatches(q, a)
    && (Window(q).Some? ==> a.availableToBook)
    && (|q.tagsIds| > 0 ==> exists i :: 0 <= i < |a.tagIds| && a.tagIds[i] in q.tagsIds)
    && (|q.locationIds| > 0 ==> a.locationId.Some? && a.locationId.value in q.locationIds)
  }

  /**
    The listing query's `where`, with the category and custodian filters
    both applied, as intended; `OrFilterAsWritten` is the code's merged
    `OR`, which lets more assets through.
   */
  predicate Matches(source: Source, q: AssetQuery, a: AssetRecord, fullText: (AssetRecord, string) -> bool) {
    BaseMatches(source, q, a, fullText) && OrFilter(source, q, a)
  }

  /** The matching assets, in their original order. */
  function MatchingAssets(source: Source, q: AssetQuery, assets: seq<AssetRecord>,
                          fullText: (AssetRecord, string) -> bool): (r: seq<AssetRecord>)
    ensures |r| <= |assets|
    ensures forall a :: a in r <==> a in assets && Matches(source, q, a, fullText)
  {
    if |assets| == 0 then []
    else
      var rest := MatchingAssets(source, q, assets[1..], fullText);
      if Matches(source, q, assets[0], fullText) then [assets[0]] + rest else rest
  }

  /** A listed asset, with the first conflicting booking shown when a window is given. */
  datatype ListedAsset = ListedAsset(asset: AssetRecord, shownBooking: Option<AssetBooking>)

  datatype AssetPage = AssetPage(assets: seq<ListedAsset>, totalAssets: nat)

  /** The first booking of `bs` that conflicts with the window (exemptions are not consulted). */
  function FirstConflict(bs: seq<AssetBooking>, from: int, to: int): (r: Option<AssetBooking>)
    ensures r.Some? ==> r.value in bs && Conflicts(r.value, from, to)
    ensures r.None? ==> forall i :: 0 <= i < |bs| ==> !Conflicts(bs[i], from, to)
  {
    if |bs| == 0 then None
    else if Conflicts(bs[0], from, to) then Some(bs[0])
    else FirstConflict(bs[1..], from, to)
  }

  function ListAsset(q: AssetQuery, a: AssetRecord): ListedAsset {
    match Window(q)
    case None => ListedAsset(a, None)
    case Some((from, to)) => ListedAsset(a, FirstConflict(a.bookings, from, to))
  }

  /**
    `getAssets` (source `AssetTable`) and `getAssetsFromView` (source
    `SearchView`): one page of the matching assets and their total count.
   */
  function GetAssets(source: Source, q: AssetQuery, assets: seq<AssetRecord>,
                     fullText: (AssetRecord, string) -> bool): (r: Result<AssetPage, ShelfError>)
    ensures q.hideUnavailable && Window(q).None? ==> r == Err(FetchFailed(source, MissingDatesError))
    ensures r.Ok? ==> r.value.totalAssets == |MatchingAssets(source, q, assets, fullText)|
    ensures r.Ok? ==> |r.value.assets| <= TakeOf(PerPage(q))
    ensures r.Ok? ==> forall i :: 0 <= i < |r.value.assets| ==>
              r.value.assets[i].asset in assets && Matches(source, q, r.value.assets[i].asset, fullText)
    ensures r.Err? ==> r.error.errorLabel == AssetsLabel
    ensures r.Ok? <==> !(q.hideUnavailable && Window(q).None?) && SkipOf(q.page, PerPage(q)) >= 0
    ensures r.Ok? ==>
              var rows := Slice(MatchingAssets(source, q, assets, fullText), SkipOf(q.page, PerPage(q)), TakeOf(PerPage(q)));
              |r.value.assets| == |rows| &&
              forall i :: 0 <= i < |rows| ==>
                r.value.assets[i].asset == rows[i] &&
                r.value.assets[i].shownBooking ==
                  (if Window(q).Some? then FirstConflict(rows[i].bookings, Window(q).value.0, Window(q).value.1) else None)
  {
    if q.hideUnavailable && Window(q).None? then Err(FetchFailed(source, MissingDatesError))
    else
      var skip := SkipOf(q.page, PerPage(q));
      if skip < 0 then Err(FetchFailed(source, QueryRejected))
      else
        var matching := MatchingAssets(source, q, assets, fullText);
        var rows := Slice(matching, skip, TakeOf(PerPage(q)));
        Ok(AssetPage(seq(|rows|, i requires 0 <= i < |rows| => ListAsset(q, rows[i])), |matching|))
  }

  // ---------------------------------------------------------------------
  // Properties

  /** A query that filters on nothing but the organization and availability. */
  predicate OnlyAvailabilityFilters(q: AssetQuery) {
    && !HasSearch(q) && q.status.None? && |q.categoriesIds| == 0 && |q.tagsIds| == 0
    && |q.locationIds| == 0 && |q.teamMemberIds| == 0
  }

  /**
    With "hide unavailable" and a window, an asset is listed only if it is
    bookable, has no custody, and has no blocking booking in the window
    other than an exempted one; with no other filter that is also enough.
   */
  lemma HideUnavailableKeepsExactlyBookable(source: Source, q: AssetQuery, a: AssetRecord,
                                            fullText: (AssetRecord, string) -> bool)
    requires q.hideUnavailable && q.bookingFrom.Some? && q.bookingTo.Some?
    ensures Matches(source, q, a, fullText) ==>
              a.availableToBook && a.custody.None? &&
              forall i :: 0 <= i < |a.bookings| ==>
                !(a.bookings[i].id !in q.unhideAssetsBookingIds &&
                  a.bookings[i].status in {RESERVED, ONGOING, OVERDUE} &&
                  DatesClash(a.bookings[i], q.bookingFrom.value, q.bookingTo.value))
    ensures OnlyAvailabilityFilters(q) ==>
              (Matches(source, q, a, fullText) <==>
                 a.organizationId == q.organizationId && a.availableToBook && a.custody.None? &&
                 !HasBlockingBooking(a, q.bookingFrom.value, q.bookingTo.value, q.unhideAssetsBookingIds))
  {
  }

  /** "Hide unavailable" without both dates is an error in both listing functions. */
  lemma MissingDatesFails(q: AssetQuery, assets: seq<AssetRecord>, fullText: (AssetRecord, string) -> bool)
    requires q.hideUnavailable && (q.bookingFrom.None? || q.bookingTo.None?)
    ensures GetAssets(AssetTable, q, assets, fullText).Err?
    ensures GetAssets(SearchView, q, assets, fullText).Err?
    ensures GetAssets(AssetTable, q, assets, fullText).error.cause == CausedBy(MissingDatesError)
    ensures GetAssets(SearchView, q, assets, fullText).error.cause == CausedBy(MissingDatesError)
  {
  }

  /** Giving both dates restricts the listing to bookable assets even without "hide unavailable". */
  lemma WindowListsOnlyBookable(source: Source, q: AssetQuery, assets: seq<AssetRecord>,
                                fullText: (AssetRecord, string) -> bool)
    requires q.bookingFrom.Some? && q.bookingTo.Some?
    ensures var r := GetAssets(source, q, assets, fullText);
            r.Ok? ==> forall i :: 0 <= i < |r.value.assets| ==> r.value.assets[i].asset.availableToBook
  {
  }

  /** The intended filter is never looser than the code's, and they agree unless both lists are in play. */
  lemma OrFilterRefinesAsWritten(source: Source, q: AssetQuery, a: AssetRecord)
    ensures OrFilter(source, q, a) ==> OrFilterAsWritten(source, q, a)
    ensures |CategoryDisjuncts(q)| == 0 || |TeamMemberDisjuncts(source, q)| == 0 ==>
              (OrFilter(source, q, a) <==> OrFilterAsWritten(source, q, a))
  {
    var cs := CategoryDisjuncts(q);
    var ts := TeamMemberDisjuncts(source, q);
    if OrFilter(source, q, a) && |cs + ts| > 0 {
      if |cs| > 0 {
        var i :| 0 <= i < |cs| && Holds(cs[i], a);
        assert (cs + ts)[i] == cs[i];
      } else {
        var i :| 0 <= i < |ts| && Holds(ts[i], a);
        assert (cs + ts)[|cs| + i] == ts[i];
      }
    }
    if |cs| == 0 {
      assert cs + ts == ts;
    } else if |ts| == 0 {
      assert cs + ts == cs;
    }
  }

  /**
    The merged `OR` list lets through an asset in another category when it
    is in the selected custodian's custody: categories {"uncategorized"},
    custodian "tm1", an asset of category "tools" held by "tm1".
   */
  lemma OrFilterAsWrittenLetsOtherCategoryThrough(source: Source)
    ensures var q := AssetQuery("org", 1, None, None, [UncategorizedId], [], None, false, None, None, [], [], ["tm1"]);
            var a := AssetRecord("a1", "org", "Drill", IN_CUSTODY, true, Some("tools"), [], None,
                                 Some(Custody("tm1", None)), []);
            OrFilterAsWritten(source, q, a) && !OrFilter(source, q, a)
  {
    var q := AssetQuery("org", 1, None, None, [UncategorizedId], [], None, false, None, None, [], [], ["tm1"]);
    var a := AssetRecord("a1", "org", "Drill", IN_CUSTODY, true, Some("tools"), [], None,
                         Some(Custody("tm1", None)), []);
    var ds := CategoryDisjuncts(q) + TeamMemberDisjuncts(source, q);
    assert Holds(ds[2], a);
    assert !Holds(CategoryDisjuncts(q)[0], a) && !Holds(CategoryDisjuncts(q)[1], a);
  }
}

=== FILE: asset_payloads.dfy ===
/**
  The relation payloads `createAsset` and `updateAsset` hand to the
  database: which QR code the new asset gets, how the category, location,
  tags and custodian are connected, and which custom-field values are
  created, upserted or deleted.
 */
module AssetPayloads {
  import opened Domain

  /** A non-empty id; `""` is falsy and counts as absent. */
  predicate Given(id: Option<Id>) {
    id.Some? && id.value != ""
  }

  // ---------------------------------------------------------------------
  // QR code

  datatype Qr = Qr(id: Id, organizationId: Id, assetId: Option<Id>)

  /** Link an existing code, or create a fresh one (version 0, error correction "L"). */
  datatype QrPlan = ConnectQr(qrId: Id) | CreateQr(version: nat, errorCorrection: string)

  const NewQr: QrPlan := CreateQr(0, "L")

  /**
    The given code is reused only if it exists, belongs to the same
    organization and is not linked to an asset yet; otherwise a new code is
    created.
   */
  function QrPlanFor(qrId: Option<Id>, qrs: map<Id, Qr>, organizationId: Id): (r: QrPlan)
    ensures r.ConnectQr? <==>
              Given(qrId) && qrId.value in qrs &&
              qrs[qrId.value].organizationId == organizationId && qrs[qrId.value].assetId.None?
    ensures r.ConnectQr? ==> r.qrId == qrId.value
    ensures r.CreateQr? ==> r == NewQr
  {
    var qr := if Given(qrId) && qrId.value in qrs then Some(qrs[qrId.value]) else None;
    if qr.Some? && qr.value.organizationId == organizationId && qr.value.assetId.None?
    then ConnectQr(qrId.value)
    else NewQr
  }

  /** A code that is already linked, or that belongs to another organization, is never taken over. */
  lemma QrNeverStolen(qrId: Id, qrs: map<Id, Qr>, organizationId: Id)
    requires qrId in qrs
    requires qrs[qrId].assetId.Some? || qrs[qrId].organizationId != organizationId
    ensures QrPlanFor(Some(qrId), qrs, organizationId) == NewQr
  {
  }

  // ---------------------------------------------------------------------
  // Custom fields

  /** A custom-field value from the form; `value` is `None` when it is missing. */
  datatype CustomFieldValue = CustomFieldValue(id: Id, value: Option<string>)

  /** `!!cf.value`: the value is present and not the empty string. */
  predicate IsSet(v: CustomFieldValue) {
    v.value.Some? && v.value.value != ""
  }

  /**
    An entry of the `create` list. When a value comes without a field id
    the code puts the falsy id itself in the list (which the database
    rejects); that entry is `FalsyEntry`.
   */
  datatype FieldCreate = CreateValue(customFieldId: Id, value: string) | FalsyEntry

  /** The `create` entry of a form value that carries a value. */
  function CreateEntry(v: CustomFieldValue): FieldCreate
    requires IsSet(v)
  {
    if v.id != "" then CreateValue(v.id, v.value.value) else FalsyEntry
  }

  /** The `create` list of `createAsset`: one entry per form value that carries a value, in order. */
  function FieldCreates(values: seq<CustomFieldValue>): (r: seq<FieldCreate>)
    ensures |r| == |Present(values)|
    ensures forall i :: 0 <= i < |r| ==> r[i] == CreateEntry(Present(values)[i])
    ensures forall v :: v in values && IsSet(v) && v.id != "" ==> CreateValue(v.id, v.value.value) in r
    ensures forall e :: e in r && e.CreateValue? ==> CustomFieldValue(e.customFieldId, Some(e.value)) in values
    ensures (forall i :: 0 <= i < |values| ==> values[i].id != "") ==> FalsyEntry !in r
  {
    var present := Present(values);
    var r := seq(|present|, i requires 0 <= i < |present| => CreateEntry(present[i]));
    assert forall v :: v in values && IsSet(v) && v.id != "" ==> CreateValue(v.id, v.value.value) in r by {
      forall v | v in values && IsSet(v) && v.id != "" ensures CreateValue(v.id, v.value.value) in r {
        var i :| 0 <= i < |present| && present[i] == v;
        assert r[i] == CreateValue(v.id, v.value.value);
      }
    }
    r
  }

  /** An existing value row of the asset: its own id and its field's id. */
  datatype StoredValue = StoredValue(id: Id, customFieldId: Id)

  /** Upsert the value row `whereId` (`""` when the field has none yet, so a row is created). */
  datatype FieldUpsert = FieldUpsert(whereId: Id, customFieldId: Id, value: string)

  /** The id of the asset's first stored value for `fieldId`, or `""`. */
  function StoredValueId(current: seq<StoredValue>, fieldId: Id): (r: Id)
    ensures r != "" ==> exists i :: 0 <= i < |current| && current[i] == StoredValue(r, fieldId)
    ensures (forall i :: 0 <= i < |current| ==> current[i].customFieldId != fieldId) ==> r == ""
    ensures forall i :: (0 <= i < |current| && current[i].customFieldId == fieldId &&
                         forall j :: 0 <= j < i ==> current[j].customFieldId != fieldId) ==> r == current[i].id
  {
    if |current| == 0 then ""
    else if current[0].customFieldId == fieldId then current[0].id
    else StoredValueId(current[1..], fieldId)
  }

  /** The form values that carry a value become upserts, in order. */
  function FieldUpserts(values: seq<CustomFieldValue>, current: seq<StoredValue>): (r: seq<FieldUpsert>)
    ensures |r| == |Present(values)|
    ensures forall i :: 0 <= i < |r| ==>
              r[i] == FieldUpsert(StoredValueId(current, Present(values)[i].id),
                                  Present(values)[i].id, Present(values)[i].value.value)
  {
    if |values| == 0 then []
    else
      var rest := FieldUpserts(values[1..], current);
      var v := values[0];
      if !IsSet(v) then rest
      else [FieldUpsert(StoredValueId(current, v.id), v.id, v.value.value)] + rest
  }

  /** The form values that carry a value, in order. */
  function Present(values: seq<CustomFieldValue>): (r: seq<CustomFieldValue>)
    ensures |r| <= |values|
    ensures forall i :: 0 <= i < |r| ==> IsSet(r[i])
    ensures forall v :: v in r <==> v in values && IsSet(v)
  {
    if |values| == 0 then []
    else if IsSet(values[0]) then [values[0]] + Present(values[1..])
    else Present(values[1..])
  }

  /** Keeping the set values of two lists one after the other keeps each list's in turn: the order is kept. */
  lemma {:induction false} PresentAppend(a: seq<CustomFieldValue>, b: seq<CustomFieldValue>)
    ensures Present(a + b) == Present(a) + Present(b)
  {
    if |a| > 0 {
      assert (a + b)[0] == a[0];
      assert (a + b)[1..] == a[1..] + b;
      PresentAppend(a[1..], b);
    } else {
      assert a + b == b;
    }
  }

  /** The fields whose form value is empty, in order: their stored values are deleted. */
  function FieldDeletes(values: seq<CustomFieldValue>): (r: seq<Id>)
    ensures |r| == |values| - |Present(values)|
    ensures forall i :: 0 <= i < |r| ==> exists v :: v in values && v.id == r[i] && !IsSet(v)
    ensures forall v :: v in values && !IsSet(v) ==> v.id in r
  {
    if |values| == 0 then []
    else
      var rest := FieldDeletes(values[1..]);
      if !IsSet(values[0]) then [values[0].id] + rest else rest
  }

  /**
    Every form value is either upserted or deleted, never both and never
    neither: a set value gets the upsert of its field, an empty one the
    delete of its field, and there is one upsert or delete per value.
   */
  lemma UpsertsAndDeletesPartition(values: seq<CustomFieldValue>, current: seq<StoredValue>)
    ensures |FieldUpserts(values, current)| + |FieldDeletes(values)| == |values|
    ensures forall v :: v in values && IsSet(v) ==>
              FieldUpsert(StoredValueId(current, v.id), v.id, v.value.value) in FieldUpserts(values, current)
    ensures forall v :: v in values && !IsSet(v) ==> v.id in FieldDeletes(values)
    ensures forall u :: u in FieldUpserts(values, current) ==> exists v :: v in values && v.value == Some(u.value) && v.id == u.customFieldId
    ensures forall id :: id in FieldDeletes(values) ==> exists v :: v in values && v.id == id && !IsSet(v)
  {
    var p := Present(values);
    var ups := FieldUpserts(values, current);
    forall v | v in values && IsSet(v)
      ensures FieldUpsert(StoredValueId(current, v.id), v.id, v.value.value) in ups
    {
      var i :| 0 <= i < |p| && p[i] == v;
      assert ups[i] == FieldUpsert(StoredValueId(current, v.id), v.id, v.value.value);
    }
    forall u | u in ups ensures exists v :: v in values && v.value == Some(u.value) && v.id == u.customFieldId {
      var i :| 0 <= i < |ups| && ups[i] == u;
      assert p[i] in p;
    }
  }

  /** A value sent as the empty string counts as empty: its field is deleted and nothing is created or upserted for it. */
  lemma EmptyValueIsDeleted(values: seq<CustomFieldValue>, id: Id)
    requires CustomFieldValue(id, Some("")) in values
    ensures id in FieldDeletes(values)
    ensures CustomFieldValue(id, Some("")) !in Present(values)
  {
  }

  // ---------------------------------------------------------------------
  // createAsset

  datatype CreateAssetInput = CreateAssetInput(
    title: string,
    organizationId: Id,
    categoryId: Option<Id>,
    locationId: Option<Id>,
    qrId: Option<Id>,
    tags: Option<seq<Id>>,
    custodian: Option<Id>,
    customFieldsValues: seq<CustomFieldValue>)

  /**
    The relations of the new asset. `status` is `None` when the schema's
    default applies; `custodian` is the team member a custody row is
    created for.
   */
  datatype CreateData = CreateData(
    qr: QrPlan,
    category: Option<Id>,
    location: Option<Id>,
    tags: seq<Id>,
    custodian: Option<Id>,
    status: Option<AssetStatus>,
    customFields: seq<FieldCreate>)

  function CreateAssetData(input: CreateAssetInput, qrs: map<Id, Qr>): (d: CreateData)
    ensures d.qr == QrPlanFor(input.qrId, qrs, input.organizationId)
    ensures d.category.Some? <==> Given(input.categoryId) && input.categoryId.value != UncategorizedId
    ensures d.category.Some? ==> d.category == input.categoryId
    ensures d.location.Some? <==> Given(input.locationId)
    ensures d.location.Some? ==> d.location == input.locationId
    ensures input.tags.Some? ==> d.tags == input.tags.value
    ensures input.tags.None? ==> d.tags == []
    ensures d.custodian.Some? <==> Given(input.custodian)
    ensures d.custodian.Some? <==> d.status == Some(IN_CUSTODY)
    ensures d.custodian.None? ==> d.status.None?
    ensures d.customFields == FieldCreates(input.customFieldsValues)
  {
    var custodian := if Given(input.custodian) then input.custodian else None;
    CreateData(
      QrPlanFor(input.qrId, qrs, input.organizationId),
      if Given(input.categoryId) && input.categoryId.value != UncategorizedId then input.categoryId else None,
      if Given(input.locationId) then input.locationId else None,
      if input.tags.Some? && |input.tags.value| > 0 then input.tags.value else [],
      custodian,
      if custodian.Some? then Some(IN_CUSTODY) else None,
      if |input.customFieldsValues| > 0 then FieldCreates(input.customFieldsValues) else [])
  }

  // ---------------------------------------------------------------------
  // updateAsset

  datatype CategoryChange = KeepCategory | DisconnectCategory | ConnectCategory(id: Id)
  datatype LocationChange = KeepLocation | DisconnectLocation | ConnectLocation(id: Id)

  /** "uncategorized" disconnects the category, another id connects it, nothing keeps it. */
  function CategoryChangeFor(categoryId: Option<Id>): (r: CategoryChange)
    ensures r == DisconnectCategory <==> categoryId == Some(UncategorizedId)
    ensures r.ConnectCategory? <==> Given(categoryId) && categoryId.value != UncategorizedId
    ensures r.ConnectCategory? ==> r.id == categoryId.value
  {
    if categoryId == Some(UncategorizedId) then DisconnectCategory
    else if Given(categoryId) then ConnectCategory(categoryId.value)
    else KeepCategory
  }

  /** A new location connects it; clearing a location that was set disconnects it. */
  function LocationChangeFor(newLocationId: Option<Id>, currentLocationId: Option<Id>): (r: LocationChange)
    ensures r.ConnectLocation? <==> Given(newLocationId)
    ensures r.ConnectLocation? ==> r.id == newLocationId.value
    ensures r == DisconnectLocation <==> !Given(newLocationId) && Given(currentLocationId)
  {
    if Given(newLocationId) then ConnectLocation(newLocationId.value)
    else if Given(currentLocationId) then DisconnectLocation
    else KeepLocation
  }

  datatype UpdateAssetInput = UpdateAssetInput(
    categoryId: Option<Id>,
    tags: Option<seq<Id>>,
    newLocationId: Option<Id>,
    currentLocationId: Option<Id>,
    customFieldsValues: seq<CustomFieldValue>)

  /**
    The update payload, and whether a location-change note is written
    afterwards. `tags`, when present, replaces the asset's tags.
   */
  datatype UpdateData = UpdateData(
    category: CategoryChange,
    location: LocationChange,
    tags: Option<seq<Id>>,
    upserts: seq<FieldUpsert>,
    deletes: seq<Id>,
    writesLocationNote: bool)

  function UpdateAssetData(input: UpdateAssetInput, current: seq<StoredValue>): (d: UpdateData)
    ensures d.category == CategoryChangeFor(input.categoryId)
    ensures d.location == LocationChangeFor(input.newLocationId, input.currentLocationId)
    ensures d.tags == input.tags
    ensures |d.upserts| + |d.deletes| == |input.customFieldsValues|
    ensures d.upserts == FieldUpserts(input.customFieldsValues, current)
    ensures d.deletes == FieldDeletes(input.customFieldsValues)
    ensures forall v :: v in input.customFieldsValues && IsSet(v) ==>
              FieldUpsert(StoredValueId(current, v.id), v.id, v.value.value) in d.upserts
    ensures forall v :: v in input.customFieldsValues && !IsSet(v) ==> v.id in d.deletes
    ensures d.writesLocationNote <==> input.newLocationId != input.currentLocationId
  {
    UpsertsAndDeletesPartition(input.customFieldsValues, current);
    UpdateData(
      CategoryChangeFor(input.categoryId),
      LocationChangeFor(input.newLocationId, input.currentLocationId),
      input.tags,
      FieldUpserts(input.customFieldsValues, current),
      FieldDeletes(input.customFieldsValues),
      input.newLocationId != input.currentLocationId)
  }

  /**
    Creating an asset and later updating it with the same category id
    agree: the category created is the one the update connects, and
    "uncategorized" is neither created nor kept.
   */
  lemma CreateAndUpdateAgreeOnCategory(input: CreateAssetInput, qrs: map<Id, Qr>, update: UpdateAssetInput)
    requires update.categoryId == input.categoryId
    ensures CreateAssetData(input, qrs).category.Some? <==> CategoryChangeFor(update.categoryId).ConnectCategory?
    ensures CreateAssetData(input, qrs).category.Some? ==>
              CreateAssetData(input, qrs).category.value == CategoryChangeFor(update.categoryId).id
  {
  }

  /**
    A location given on creation is the one an update from no location
    connects, and that update writes a location note.
   */
  lemma CreateAndUpdateAgreeOnLocation(input: CreateAssetInput, qrs: map<Id, Qr>, update: UpdateAssetInput,
                                       current: seq<StoredValue>)
    requires update.newLocationId == input.locationId && update.currentLocationId.None?
    ensures CreateAssetData(input, qrs).location.Some? <==> UpdateAssetData(update, current).location.ConnectLocation?
    ensures CreateAssetData(input, qrs).location.Some? ==>
              CreateAssetData(input, qrs).location.value == UpdateAssetData(update, current).location.id &&
              UpdateAssetData(update, current).writesLocationNote
  {
  }
}

=== FILE: booking_custodians.dfy ===
/**
  The custodian shown for a checked-out asset: the user who holds the
  asset through its ongoing or overdue booking, which replaces the asset's
  custody record in asset lists.
 */
module BookingCustodians {
  import opened Domain

  datatype CustodianUser = CustodianUser(firstName: Option<string>, lastName: Option<string>,
                                         profilePicture: Option<string>)

  /** A booking of the asset with its custodian user, if any. */
  datatype AssetBookingRow = AssetBookingRow(id: Id, status: BookingStatus, custodianUser: Option<CustodianUser>)

  /** The custody shown in lists: the custodian's name and picture. */
  datatype CustodyView = CustodyView(name: string, profilePicture: Option<string>)

  datatype ListAsset = ListAsset(id: Id, status: AssetStatus, custody: Option<CustodyView>)

  /** The bookings stored for each asset id. */
  type BookingsByAsset = map<Id, seq<AssetBookingRow>>

  predicate IsActive(s: BookingStatus) {
    s == ONGOING || s == OVERDUE
  }

  /** The ids of the checked-out assets, in order. */
  function CheckedOutIds(assets: seq<ListAsset>): (r: seq<Id>)
    ensures |r| <= |assets|
    ensures forall id :: id in r <==> exists i :: 0 <= i < |assets| && assets[i].id == id && assets[i].status == CHECKED_OUT
  {
    if |assets| == 0 then []
    else
      var rest := CheckedOutIds(assets[1..]);
      assert forall i :: 1 <= i < |assets| ==> assets[i] == assets[1..][i - 1];
      if assets[0].status == CHECKED_OUT then [assets[0].id] + rest else rest
  }

  /** The first ongoing or overdue booking. */
  function FirstActive(bookings: seq<AssetBookingRow>): (r: Option<AssetBookingRow>)
    ensures r.Some? <==> exists i :: 0 <= i < |bookings| && IsActive(bookings[i].status)
    ensures r.Some? ==> r.value in bookings && IsActive(r.value.status)
    ensures forall i :: (0 <= i < |bookings| && IsActive(bookings[i].status) &&
                         forall j :: 0 <= j < i ==> !IsActive(bookings[j].status)) ==> r == Some(bookings[i])
  {
    if |bookings| == 0 then None
    else if IsActive(bookings[0].status) then Some(bookings[0])
    else FirstActive(bookings[1..])
  }

  /** `${first || ""} ${last || ""}`, and `profilePicture || null`. */
  function CustodyOf(u: CustodianUser): (c: CustodyView)
    ensures c.profilePicture.Some? <==> u.profilePicture.Some? && u.profilePicture.value != ""
    ensures c.profilePicture.Some? ==> c.profilePicture == u.profilePicture
    ensures var f := u.firstName.GetOr(""); var l := u.lastName.GetOr("");
            && |c.name| == |f| + 1 + |l|
            && c.name[..|f|] == f && c.name[|f|] == ' ' && c.name[|f| + 1..] == l
  {
    CustodyView(u.firstName.GetOr("") + " " + u.lastName.GetOr(""),
                if u.profilePicture.Some? && u.profilePicture.value != "" then u.profilePicture else None)
  }

  /** The custody derived from the asset's first active booking; `None` when there is no custodian user. */
  function BookingCustody(bookings: BookingsByAsset, id: Id): (r: Option<CustodyView>)
    ensures r.Some? <==> id in bookings && FirstActive(bookings[id]).Some? &&
                         FirstActive(bookings[id]).value.custodianUser.Some?
    ensures r.Some? ==> r == Some(CustodyOf(FirstActive(bookings[id]).value.custodianUser.value))
  {
    if id !in bookings then None
    else
      match FirstActive(bookings[id])
      case None => None
      case Some(b) => if b.custodianUser.Some? then Some(CustodyOf(b.custodianUser.value)) else None
  }

  function Overlay(assets: seq<ListAsset>, checkedOut: seq<Id>, bookings: BookingsByAsset): (r: seq<ListAsset>)
    ensures |r| == |assets|
    ensures forall i :: 0 <= i < |r| ==>
              r[i].id == assets[i].id && r[i].status == assets[i].status &&
              r[i].custody == (if assets[i].id in checkedOut then BookingCustody(bookings, assets[i].id)
                               else assets[i].custody)
  {
    if |assets| == 0 then []
    else
      var a := assets[0];
      [if a.id in checkedOut then a.(custody := BookingCustody(bookings, a.id)) else a]
      + Overlay(assets[1..], checkedOut, bookings)
  }

  /**
    `updateAssetsWithBookingCustodians`: the list keeps its length, order,
    ids and statuses; an asset whose id is among the checked-out ones shows
    its booking custodian, or none; every other asset is returned as it
    was.
   */
  function WithBookingCustodians(assets: seq<ListAsset>, bookings: BookingsByAsset): (r: seq<ListAsset>)
    ensures |r| == |assets|
    ensures forall i :: 0 <= i < |r| ==> r[i].id == assets[i].id && r[i].status == assets[i].status
    ensures forall i :: 0 <= i < |r| && assets[i].status == CHECKED_OUT ==>
              r[i].custody == BookingCustody(bookings, assets[i].id)
    ensures forall i :: 0 <= i < |r| && (forall j :: 0 <= j < |assets| && assets[j].id == assets[i].id ==>
                                           assets[j].status != CHECKED_OUT) ==>
              r[i] == assets[i]
  {
    var checkedOut := CheckedOutIds(assets);
    assert forall i :: 0 <= i < |assets| && assets[i].status == CHECKED_OUT ==> assets[i].id in checkedOut;
    if |checkedOut| > 0 then Overlay(assets, checkedOut, bookings) else assets
  }

  /** Overlaying twice is the same as once: the custody only depends on the bookings. */
  lemma WithBookingCustodiansIdempotent(assets: seq<ListAsset>, bookings: BookingsByAsset)
    ensures WithBookingCustodians(WithBookingCustodians(assets, bookings), bookings)
            == WithBookingCustodians(assets, bookings)
  {
    var once := WithBookingCustodians(assets, bookings);
    var twice := WithBookingCustodians(once, bookings);
    assert forall id :: id in CheckedOutIds(once) <==> id in CheckedOutIds(assets);
    assert forall i :: 0 <= i < |twice| ==> twice[i] == once[i];
  }

  /** A list without checked-out assets is returned unchanged. */
  lemma NoCheckedOutNoChange(assets: seq<ListAsset>, bookings: BookingsByAsset)
    requires forall i :: 0 <= i < |assets| ==> assets[i].status != CHECKED_OUT
    ensures WithBookingCustodians(assets, bookings) == assets
  {
  }
}

=== FILE: booking_status.dfy ===
/**
  The flags a booking page derives from a booking: whether it has assets,
  whether some of them cannot be booked, and one flag per status.
 */
module BookingStatusFlags {
  import opened Domain

  datatype BookingAsset = BookingAsset(status: AssetStatus, availableToBook: bool)

  datatype StatusFlags = StatusFlags(
    hasAssets: bool,
    hasUnavailableAssets: bool,
    isDraft: bool,
    isReserved: bool,
    isOngoing: bool,
    isCompleted: bool,
    isArchived: bool,
    isOverdue: bool)

  /** `assets.some(a => !a.availableToBook)` */
  function AnyNotBookable(assets: seq<BookingAsset>): (r: bool)
    ensures r <==> exists i :: 0 <= i < |assets| && !assets[i].availableToBook
  {
    if |assets| == 0 then false
    else !assets[0].availableToBook || AnyNotBookable(assets[1..])
  }

  /** `assets.some(a => a.status === CHECKED_OUT)` */
  function AnyCheckedOut(assets: seq<BookingAsset>): (r: bool)
    ensures r <==> exists i :: 0 <= i < |assets| && assets[i].status == CHECKED_OUT
  {
    if |assets| == 0 then false
    else assets[0].status == CHECKED_OUT || AnyCheckedOut(assets[1..])
  }

  /** `useBookingStatus`, without the memoization. */
  function UseBookingStatus(status: BookingStatus, assets: seq<BookingAsset>): (f: StatusFlags)
    ensures f.hasAssets <==> |assets| > 0
    ensures f.hasUnavailableAssets <==>
              exists i :: 0 <= i < |assets| && (!assets[i].availableToBook || assets[i].status == CHECKED_OUT)
    ensures !f.hasAssets ==> !f.hasUnavailableAssets
  {
    StatusFlags(
      |assets| > 0,
      AnyNotBookable(assets) || AnyCheckedOut(assets),
      status == DRAFT,
      status == RESERVED,
      status == ONGOING,
      status == COMPLETE,
      status == ARCHIVED,
      status == OVERDUE)
  }

  function Count(b: bool): nat {
    if b then 1 else 0
  }

  /** How many of the six status flags are set. */
  function StatusFlagCount(f: StatusFlags): nat {
    Count(f.isDraft) + Count(f.isReserved) + Count(f.isOngoing) +
    Count(f.isCompleted) + Count(f.isArchived) + Count(f.isOverdue)
  }

  /** A booking shows at most one status; only a cancelled one shows none. */
  lemma StatusFlagsExclusive(status: BookingStatus, assets: seq<BookingAsset>)
    ensures StatusFlagCount(UseBookingStatus(status, assets)) <= 1
    ensures StatusFlagCount(UseBookingStatus(status, assets)) == 0 <==> status == CANCELLED
  {
  }

  /** Each status sets its own flag. */
  lemma StatusFlagMatchesStatus(status: BookingStatus, assets: seq<BookingAsset>)
    ensures var f := UseBookingStatus(status, assets);
            (status == DRAFT ==> f.isDraft) && (status == RESERVED ==> f.isReserved) &&
            (status == ONGOING ==> f.isOngoing) && (status == COMPLETE ==> f.isCompleted) &&
            (status == ARCHIVED ==> f.isArchived) && (status == OVERDUE ==> f.isOverdue)
  {
  }
}

=== FILE: bookings_index.dfy ===
/**
  The bookings list page: the loader's page count, status filter and date
  decoration, and the per-row unavailable-assets badge, status color and
  custodian column.
 */
module BookingsIndex {
  import opened Domain
  import SearchTokens
  import Pagination

  // ---------------------------------------------------------------------
  // Loader

  /**
    `Math.ceil(bookingCount / perPage)`; `None` where JavaScript yields
    NaN or Infinity (a zero `perPage`).
   */
  function TotalPages(bookingCount: nat, perPage: int): (r: Option<int>)
    ensures r.None? <==> perPage == 0
    ensures perPage > 0 ==> r.Some? && r.value * perPage >= bookingCount && (r.value - 1) * perPage < bookingCount
    ensures perPage < 0 ==> r.Some? && r.value <= 0 &&
                            -r.value * (-perPage) <= bookingCount < (-r.value + 1) * (-perPage)
  {
    if perPage == 0 then None
    else if perPage > 0 then Some(Pagination.CeilDiv(bookingCount, perPage))
    else Some(-(bookingCount / -perPage))
  }

  /** The `statuses` argument of the bookings query: only a non-empty status param filters. */
  function StatusesFilter(status: Option<string>): (r: Option<seq<string>>)
    ensures r.Some? <==> status.Some? && status.value != ""
    ensures r.Some? ==> r.value == [status.value]
  {
    if status.Some? && status.value != "" then Some([status.value]) else None
  }

  datatype IndexAsset = IndexAsset(id: Id, availableToBook: bool, hasCustody: bool)
  datatype CustodianUser = CustodianUser(firstName: Option<string>, lastName: Option<string>,
                                         profilePicture: Option<string>)
  datatype TeamMember = TeamMember(name: string)

  datatype BookingItem = BookingItem(
    id: Id,
    name: string,
    status: BookingStatus,
    from: Option<int>,
    to: Option<int>,
    assets: seq<IndexAsset>,
    custodianUser: Option<CustodianUser>,
    custodianTeamMember: Option<TeamMember>,
    displayFrom: Option<seq<string>>,
    displayTo: Option<seq<string>>)

  /**
    An item with both dates gets them formatted by `format` (the user's
    locale and time zone) and split at the commas; any other item is
    returned unchanged.
   */
  function Decorate(b: BookingItem, format: int -> string): (r: BookingItem)
    ensures b.from.None? || b.to.None? ==> r == b
    ensures b.from.Some? && b.to.Some? ==>
              r.displayFrom.Some? && r.displayTo.Some? &&
              |r.displayFrom.value| >= 1 && |r.displayTo.value| >= 1 &&
              SearchTokens.Join(r.displayFrom.value, ',') == format(b.from.value) &&
              SearchTokens.Join(r.displayTo.value, ',') == format(b.to.value) &&
              (forall k :: 0 <= k < |r.displayFrom.value| ==> ',' !in r.displayFrom.value[k]) &&
              (forall k :: 0 <= k < |r.displayTo.value| ==> ',' !in r.displayTo.value[k]) &&
              r == b.(displayFrom := r.displayFrom, displayTo := r.displayTo)
  {
    if b.from.Some? && b.to.Some? then
      var displayFrom := SearchTokens.Split(format(b.from.value), ',');
      var displayTo := SearchTokens.Split(format(b.to.value), ',');
      SearchTokens.JoinSplit(format(b.from.value), ',');
      SearchTokens.JoinSplit(format(b.to.value), ',');
      b.(displayFrom := Some(displayFrom), displayTo := Some(displayTo))
    else b
  }

  function DecorateAll(bookings: seq<BookingItem>, format: int -> string): (r: seq<BookingItem>)
    ensures |r| == |bookings|
    ensures forall i :: 0 <= i < |r| ==> r[i] == Decorate(bookings[i], format)
  {
    if |bookings| == 0 then [] else [Decorate(bookings[0], format)] + DecorateAll(bookings[1..], format)
  }

  datatype LoaderData = LoaderData(items: seq<BookingItem>, page: int, totalItems: nat,
                                   totalPages: Option<int>, perPage: int)

  /**
    The loader over one page of bookings and the count of all matching
    bookings. `totalItems` is the number of bookings on this page, not the
    count.
   */
  function Loader(bookings: seq<BookingItem>, bookingCount: nat, page: int, perPage: int,
                  format: int -> string): (r: LoaderData)
    ensures r.totalItems == |bookings| && |r.items| == |bookings|
    ensures forall i :: 0 <= i < |r.items| ==> r.items[i].id == bookings[i].id && r.items[i].status == bookings[i].status
    ensures forall i :: 0 <= i < |r.items| ==> r.items[i] == Decorate(bookings[i], format)
    ensures perPage > 0 ==> r.totalPages.Some? && r.totalPages.value * perPage >= bookingCount
    ensures r.totalPages == TotalPages(bookingCount, perPage)
  {
    LoaderData(DecorateAll(bookings, format), page, |bookings|, TotalPages(bookingCount, perPage), perPage)
  }

  /**
    The loader as evidently intended: the same items and page count, with
    `totalItems` the count of all matching bookings, which is what the
    pagination bar compares `page * perPage` against.
   */
  function CountedLoader(bookings: seq<BookingItem>, bookingCount: nat, page: int, perPage: int,
                         format: int -> string): (r: LoaderData)
    ensures r.totalItems == bookingCount && |r.items| == |bookings|
    ensures forall i :: 0 <= i < |r.items| ==> r.items[i] == Decorate(bookings[i], format)
    ensures r.totalPages == TotalPages(bookingCount, perPage)
  {
    Loader(bookings, bookingCount, page, perPage, format).(totalItems := bookingCount)
  }

  /**
    As written, the bar is handed the length of the page as `totalItems`,
    so on a page that holds at most `perPage` bookings next is disabled,
    whatever the count.
   */
  lemma LoaderDisablesNextOnEveryPage(bookings: seq<BookingItem>, bookingCount: nat, page: int, perPage: int,
                                      format: int -> string)
    requires page >= 1 && perPage > 0 && |bookings| <= perPage
    ensures Loader(bookings, bookingCount, page, perPage, format).totalPages.Some?
    ensures Pagination.NextDisabled(Loader(bookings, bookingCount, page, perPage, format).totalPages.value, page, perPage,
                                    Loader(bookings, bookingCount, page, perPage, format).totalItems)
  {
    Pagination.MulMonotonic(1, page, perPage);
  }

  /**
    When more bookings match than the pages up to this one hold, the page
    as written disables next although the corrected loader enables it.
   */
  lemma LoaderHidesLaterPages(bookings: seq<BookingItem>, bookingCount: nat, page: int, perPage: int,
                              format: int -> string)
    requires page >= 1 && perPage > 0 && |bookings| <= perPage
    requires bookingCount > page * perPage
    ensures Pagination.NextDisabled(Loader(bookings, bookingCount, page, perPage, format).totalPages.value, page, perPage,
                                    Loader(bookings, bookingCount, page, perPage, format).totalItems)
    ensures !Pagination.NextDisabled(CountedLoader(bookings, bookingCount, page, perPage, format).totalPages.value,
                                     page, perPage, CountedLoader(bookings, bookingCount, page, perPage, format).totalItems)
  {
    LoaderDisablesNextOnEveryPage(bookings, bookingCount, page, perPage, format);
    var t := TotalPages(bookingCount, perPage).value;
    if t <= page {
      Pagination.MulMonotonic(t, page, perPage);
      assert false;
    }
  }

  /**
    With the corrected loader, the page count makes the pagination bar
    disable next exactly from the last page.
   */
  lemma LoaderPagesMatchPagination(bookings: seq<BookingItem>, bookingCount: nat, page: int, perPage: int,
                                   format: int -> string)
    requires perPage > 0
    requires TotalPages(bookingCount, perPage).value > 1
    ensures Pagination.NextDisabled(CountedLoader(bookings, bookingCount, page, perPage, format).totalPages.value, page, perPage,
                                    CountedLoader(bookings, bookingCount, page, perPage, format).totalItems)
            <==> page >= CountedLoader(bookings, bookingCount, page, perPage, format).totalPages.value
  {
    Pagination.NextDisabledFromLastPage(page, perPage, bookingCount);
  }

  // ---------------------------------------------------------------------
  // Rows

  /** `assets.some(a => !a.availableToBook || a.custody !== null)` */
  function HasUnavailableAssets(assets: seq<IndexAsset>): (r: bool)
    ensures r <==> exists i :: 0 <= i < |assets| && (!assets[i].availableToBook || assets[i].hasCustody)
  {
    if |assets| == 0 then false
    else !assets[0].availableToBook || assets[0].hasCustody || HasUnavailableAssets(assets[1..])
  }

  /** The badge color of each status. */
  function StatusColor(s: BookingStatus): (c: string)
    ensures |c| == 7 && c[0] == '#'
    ensures c == "#667085" <==> s == DRAFT || s == ARCHIVED || s == CANCELLED
  {
    match s
    case DRAFT => "#667085"
    case RESERVED => "#175CD3"
    case ONGOING => "#7A5AF8"
    case OVERDUE => "#B54708"
    case COMPLETE => "#17B26A"
    case ARCHIVED => "#667085"
    case CANCELLED => "#667085"
  }

  /** Two statuses share a color only when both are draft, archived or cancelled. */
  lemma StatusColorsDistinguishActive(s: BookingStatus, t: BookingStatus)
    requires s != t
    requires StatusColor(s) == StatusColor(t)
    ensures s in {DRAFT, ARCHIVED, CANCELLED} && t in {DRAFT, ARCHIVED, CANCELLED}
  {
  }

  const DefaultPicture: string := "/images/default_pfp.jpg"

  /** A template literal renders a null name column as "null". */
  function Rendered(s: Option<string>): string {
    if s.Some? then s.value else "null"
  }

  datatype CustodianCell = CustodianCell(img: string, name: string)

  /**
    The custodian column: the custodian user when there is one, else the
    custodian team member, else nothing. A missing or empty picture shows
    the default one.
   */
  function CustodianColumn(b: BookingItem): (r: Option<CustodianCell>)
    ensures r.None? <==> b.custodianUser.None? && b.custodianTeamMember.None?
    ensures b.custodianUser.Some? ==>
              r.Some? && r.value.name == Rendered(b.custodianUser.value.firstName) + " " + Rendered(b.custodianUser.value.lastName)
    ensures b.custodianUser.None? && b.custodianTeamMember.Some? ==>
              r == Some(CustodianCell(DefaultPicture, b.custodianTeamMember.value.name))
    ensures r.Some? && r.value.img != DefaultPicture ==>
              b.custodianUser.Some? && b.custodianUser.value.profilePicture == Some(r.value.img)
    ensures b.custodianUser.Some? && b.custodianUser.value.profilePicture.Some? &&
            b.custodianUser.value.profilePicture.value != "" ==>
              r.Some? && r.value.img == b.custodianUser.value.profilePicture.value
    ensures b.custodianUser.Some? && (b.custodianUser.value.profilePicture.None? ||
                                      b.custodianUser.value.profilePicture == Some("")) ==>
              r.Some? && r.value.img == DefaultPicture
  {
    if b.custodianUser.Some? then
      var u := b.custodianUser.value;
      var img := if u.profilePicture.Some? && u.profilePicture.value != "" then u.profilePicture.value else DefaultPicture;
      Some(CustodianCell(img, Rendered(u.firstName) + " " + Rendered(u.lastName)))
    else if b.custodianTeamMember.Some? then
      Some(CustodianCell(DefaultPicture, b.custodianTeamMember.value.name))
    else None
  }
}

=== FILE: change_notes.dfy ===
/**
  The activity notes written when an asset changes kit or location, one
  asset at a time or in bulk. Each note is an "UPDATE" note whose
  markdown message names the user, the asset and the kit or location.
 */
module ChangeNotes {
  import opened Domain

  datatype Kit = Kit(id: Id, name: string)
  datatype Location = Location(id: Id, name: string)

  /** A user's name columns; `None` for a null column. */
  datatype UserName = UserName(firstName: Option<string>, lastName: Option<string>)

  datatype Note = Note(content: string, noteType: string, userId: Id, assetId: Id)

  const UpdateNote: string := "UPDATE"

  function FullName(firstName: string, lastName: string): string {
    Trim(firstName) + " " + Trim(lastName)
  }

  function Bold(s: string): (r: string)
    ensures |r| == |s| + 4 && r[..2] == "**"
  {
    "**" + s + "**"
  }

  /** The bold user name every message starts with. */
  function Author(firstName: string, lastName: string): (r: string)
    ensures |r| >= 4 && r[..2] == "**"
  {
    Bold(FullName(firstName, lastName))
  }

  /** `content` is `who` followed by a sentence that starts with `phrase`. */
  predicate Says(content: string, who: string, phrase: string) {
    |who| <= |content| && content[..|who|] == who && phrase <= content[|who|..]
  }

  predicate EndsWith(s: string, t: string) {
    |t| <= |s| && s[|s| - |t|..] == t
  }

  lemma EndsWithAppend(a: string, b: string, t: string)
    requires EndsWith(b, t)
    ensures EndsWith(a + b, t)
  {
    assert (a + b)[|a + b| - |t|..] == b[|b| - |t|..];
  }

  /** A message: the bold user name, then the rest of the sentence. */
  function Sentence(who: string, rest: string): (m: string)
    requires |who| >= 4
    ensures |m| >= 4 && m[..2] == who[..2]
    ensures forall phrase :: Says(m, who, phrase) <==> phrase <= rest
    ensures forall t :: EndsWith(rest, t) ==> EndsWith(m, t)
  {
    var m := who + rest;
    assert m[..2] == who[..2] && m[..|who|] == who && m[|who|..] == rest;
    forall t | EndsWith(rest, t) ensures EndsWith(m, t) {
      EndsWithAppend(who, rest, t);
    }
    m
  }

  /** `phrase`, then `middle`, then `link`: a sentence that starts with the phrase and ends with the link. */
  function Phrased(phrase: string, middle: string, link: string): (r: string)
    ensures phrase <= r && EndsWith(r, link)
  {
    var r := phrase + (middle + link);
    EndsWithAppend(middle, link, link);
    EndsWithAppend(phrase, middle + link, link);
    assert r[..|phrase|] == phrase;
    r
  }

  /** `${x?.name.trim()}` and `${x?.id}` render as "undefined" when `x` is null. */
  function KitNameOrUndefined(k: Option<Kit>): string {
    if k.Some? then Trim(k.value.name) else "undefined"
  }

  function KitIdOrUndefined(k: Option<Kit>): string {
    if k.Some? then k.value.id else "undefined"
  }

  function KitLink(name: string, id: string): string {
    Bold("[" + name + "](/kits/" + id + ")")
  }

  // ---------------------------------------------------------------------
  // createKitChangeNote

  datatype KitNoteKind = ChangedKit | AddedToKit | RemovedFromKit | NoKitNote

  /**
    Which message applies. The code assigns the three messages in turn, a
    later one overriding an earlier one; the three conditions exclude one
    another, so at most one of them holds.
   */
  function KitNoteKindFor(currentKit: Option<Kit>, newKit: Option<Kit>, isRemoving: bool): (k: KitNoteKind)
    ensures k == ChangedKit <==> currentKit.Some? && newKit.Some? && currentKit.value.id != newKit.value.id
    ensures k == AddedToKit <==> newKit.Some? && currentKit.None?
    ensures k == RemovedFromKit <==> isRemoving && newKit.None?
  {
    var k1 := if currentKit.Some? && newKit.Some? && currentKit.value.id != newKit.value.id then ChangedKit else NoKitNote;
    var k2 := if newKit.Some? && currentKit.None? then AddedToKit else k1;
    if isRemoving && newKit.None? then RemovedFromKit else k2
  }

  /** The verb phrase of each kind of kit note; a note of no kind is not written. */
  function KitPhrase(kind: KitNoteKind): string {
    match kind
    case ChangedKit => " changed kit of "
    case AddedToKit => " added asset to "
    case RemovedFromKit => " removed asset from "
    case NoKitNote => ""
  }

  /** No two kinds of written kit note share their verb phrase: a note's text tells its kind. */
  lemma KitPhrasesDistinct(k1: KitNoteKind, k2: KitNoteKind, s: string)
    requires k1 != NoKitNote && k2 != NoKitNote
    requires KitPhrase(k1) <= s && KitPhrase(k2) <= s
    ensures k1 == k2
  {
    assert KitPhrase(k1)[1] == s[1] == KitPhrase(k2)[1];
  }

  /**
    The sentence after the user's name: it starts with the verb phrase of
    its kind and ends with the link to the kit the asset goes to, or comes
    from when it is removed.
   */
  function KitSentence(kind: KitNoteKind, assetName: string, currentKit: Option<Kit>, newKit: Option<Kit>): (r: string)
    requires kind == ChangedKit ==> currentKit.Some? && newKit.Some?
    requires kind == AddedToKit ==> newKit.Some?
    ensures KitPhrase(kind) <= r
    ensures kind == ChangedKit || kind == AddedToKit ==>
              EndsWith(r, KitLink(Trim(newKit.value.name), newKit.value.id))
    ensures kind == RemovedFromKit ==> EndsWith(r, KitLink(KitNameOrUndefined(currentKit), KitIdOrUndefined(currentKit)))
  {
    match kind
    case ChangedKit =>
      Phrased(KitPhrase(kind),
              Bold(Trim(assetName)) + " from " + KitLink(Trim(currentKit.value.name), currentKit.value.id) + " to ",
              KitLink(Trim(newKit.value.name), newKit.value.id))
    case AddedToKit =>
      Phrased(KitPhrase(kind), "", KitLink(Trim(newKit.value.name), newKit.value.id))
    case RemovedFromKit =>
      Phrased(KitPhrase(kind), "", KitLink(KitNameOrUndefined(currentKit), KitIdOrUndefined(currentKit)))
    case NoKitNote => ""
  }

  /**
    The note `createKitChangeNote` writes, or `None` when it writes none.
    The code returns early on an empty message, which happens exactly when
    no kind applies, since every message starts with the user's name.
   */
  function KitChangeNote(currentKit: Option<Kit>, newKit: Option<Kit>, firstName: string, lastName: string,
                         assetName: string, assetId: Id, userId: Id, isRemoving: bool): (r: Option<Note>)
    ensures r.None? <==> KitNoteKindFor(currentKit, newKit, isRemoving) == NoKitNote
    ensures r.Some? ==> r.value.assetId == assetId && r.value.userId == userId && r.value.noteType == UpdateNote
    ensures r.Some? ==> Says(r.value.content, Author(firstName, lastName), KitPhrase(KitNoteKindFor(currentKit, newKit, isRemoving)))
    ensures r.Some? && newKit.Some? ==> EndsWith(r.value.content, KitLink(Trim(newKit.value.name), newKit.value.id))
    ensures r.Some? && newKit.None? ==>
              EndsWith(r.value.content, KitLink(KitNameOrUndefined(currentKit), KitIdOrUndefined(currentKit)))
  {
    var kind := KitNoteKindFor(currentKit, newKit, isRemoving);
    if kind == NoKitNote then None
    else
      var message := Sentence(Author(firstName, lastName), KitSentence(kind, assetName, currentKit, newKit));
      Some(Note(message, UpdateNote, userId, assetId))
  }

  /** A written kit note names its kind: its verb phrase is that of its kind and of no other. */
  lemma KitNoteNamesItsKind(currentKit: Option<Kit>, newKit: Option<Kit>, firstName: string, lastName: string,
                            assetName: string, assetId: Id, userId: Id, isRemoving: bool, k: KitNoteKind)
    requires k != NoKitNote
    requires KitNoteKindFor(currentKit, newKit, isRemoving) != NoKitNote
    ensures Says(KitChangeNote(currentKit, newKit, firstName, lastName, assetName, assetId, userId, isRemoving).value.content,
                 Author(firstName, lastName), KitPhrase(k))
            <==> k == KitNoteKindFor(currentKit, newKit, isRemoving)
  {
    var n := KitChangeNote(currentKit, newKit, firstName, lastName, assetName, assetId, userId, isRemoving).value;
    var who := Author(firstName, lastName);
    if Says(n.content, who, KitPhrase(k)) {
      KitPhrasesDistinct(k, KitNoteKindFor(currentKit, newKit, isRemoving), n.content[|who|..]);
    }
  }

  /** Moving an asset to the kit it is already in writes no note. */
  lemma SameKitWritesNoNote(kit: Kit, sameIdKit: Kit, firstName: string, lastName: string,
                            assetName: string, assetId: Id, userId: Id, isRemoving: bool)
    requires kit.id == sameIdKit.id
    ensures KitChangeNote(Some(kit), Some(sameIdKit), firstName, lastName, assetName, assetId, userId, isRemoving).None?
  {
  }

  /** Neither a current nor a new kit, and not removing: no note. */
  lemma NoKitsWritesNoNote(firstName: string, lastName: string, assetName: string, assetId: Id, userId: Id)
    ensures KitChangeNote(None, None, firstName, lastName, assetName, assetId, userId, false).None?
  {
  }

  // ---------------------------------------------------------------------
  // createLocationChangeNote

  datatype LocationNoteKind = UpdatedLocation | SetLocation | RemovedLocation

  /**
    Which message applies; the removal message overrides the other two,
    and one of the three always applies.
   */
  function LocationNoteKindFor(currentLocation: Option<Location>, newLocation: Option<Location>,
                               isRemoving: bool): (k: LocationNoteKind)
    ensures k == RemovedLocation <==> isRemoving || newLocation.None?
    ensures k == UpdatedLocation <==> !isRemoving && newLocation.Some? && currentLocation.Some?
    ensures k == SetLocation <==> !isRemoving && newLocation.Some? && currentLocation.None?
  {
    if isRemoving || newLocation.None? then RemovedLocation
    else if currentLocation.Some? then UpdatedLocation
    else SetLocation
  }

  function LocationLink(name: string, id: string): string {
    Bold("[" + name + "](/locations/" + id + ")")
  }

  /** The link to a location, or to "undefined" when there is none. */
  function LocationLinkOrUndefined(l: Option<Location>): string {
    LocationLink(if l.Some? then Trim(l.value.name) else "undefined", if l.Some? then l.value.id else "undefined")
  }

  /** The verb phrase of each kind of location note; the removal one has two spaces before the asset name. */
  function LocationPhrase(kind: LocationNoteKind): string {
    match kind
    case UpdatedLocation => " updated the location of "
    case SetLocation => " set the location of "
    case RemovedLocation => " removed  "
  }

  /** No two kinds of location note share their verb phrase: a note's text tells its kind. */
  lemma LocationPhrasesDistinct(k1: LocationNoteKind, k2: LocationNoteKind, s: string)
    requires LocationPhrase(k1) <= s && LocationPhrase(k2) <= s
    ensures k1 == k2
  {
    assert LocationPhrase(k1)[1] == s[1] == LocationPhrase(k2)[1];
  }

  /**
    The sentence after the user's name: it starts with the verb phrase of
    its kind and ends with the link to the new location, or to the current
    one when the asset is removed from it.
   */
  function LocationSentence(kind: LocationNoteKind, assetName: string,
                            currentLocation: Option<Location>, newLocation: Option<Location>): (r: string)
    requires kind == UpdatedLocation ==> currentLocation.Some? && newLocation.Some?
    requires kind == SetLocation ==> newLocation.Some?
    ensures LocationPhrase(kind) <= r
    ensures kind != RemovedLocation ==> EndsWith(r, LocationLink(Trim(newLocation.value.name), newLocation.value.id))
    ensures kind == RemovedLocation ==> EndsWith(r, LocationLinkOrUndefined(currentLocation))
  {
    var asset := Bold(Trim(assetName));
    match kind
    case UpdatedLocation =>
      Phrased(LocationPhrase(kind),
              asset + " from " + LocationLink(Trim(currentLocation.value.name), currentLocation.value.id) + " to ",
              LocationLink(Trim(newLocation.value.name), newLocation.value.id))
    case SetLocation =>
      Phrased(LocationPhrase(kind), asset + " to ", LocationLink(Trim(newLocation.value.name), newLocation.value.id))
    case RemovedLocation =>
      Phrased(LocationPhrase(kind), asset + " from location ", LocationLinkOrUndefined(currentLocation))
  }

  /**
    The note `createLocationChangeNote` writes; it always writes one, with
    the verb phrase of its kind, linking the new location, or the current
    one on removal.
   */
  function LocationChangeNote(currentLocation: Option<Location>, newLocation: Option<Location>,
                              firstName: string, lastName: string, assetName: string,
                              assetId: Id, userId: Id, isRemoving: bool): (n: Note)
    ensures n.assetId == assetId && n.userId == userId && n.noteType == UpdateNote
    ensures Says(n.content, Author(firstName, lastName),
                 LocationPhrase(LocationNoteKindFor(currentLocation, newLocation, isRemoving)))
    ensures !isRemoving && newLocation.Some? ==>
              EndsWith(n.content, LocationLink(Trim(newLocation.value.name), newLocation.value.id))
    ensures isRemoving || newLocation.None? ==> EndsWith(n.content, LocationLinkOrUndefined(currentLocation))
  {
    var kind := LocationNoteKindFor(currentLocation, newLocation, isRemoving);
    var message := Sentence(Author(firstName, lastName),
                            LocationSentence(kind, assetName, currentLocation, newLocation));
    Note(message, UpdateNote, userId, assetId)
  }

  /** A location note names its kind: its verb phrase is that of its kind and of no other. */
  lemma LocationNoteNamesItsKind(currentLocation: Option<Location>, newLocation: Option<Location>,
                                 firstName: string, lastName: string, assetName: string,
                                 assetId: Id, userId: Id, isRemoving: bool, k: LocationNoteKind)
    ensures Says(LocationChangeNote(currentLocation, newLocation, firstName, lastName, assetName, assetId, userId, isRemoving).content,
                 Author(firstName, lastName), LocationPhrase(k))
            <==> k == LocationNoteKindFor(currentLocation, newLocation, isRemoving)
  {
    var n := LocationChangeNote(currentLocation, newLocation, firstName, lastName, assetName, assetId, userId, isRemoving);
    var who := Author(firstName, lastName);
    if Says(n.content, who, LocationPhrase(k)) {
      LocationPhrasesDistinct(k, LocationNoteKindFor(currentLocation, newLocation, isRemoving), n.content[|who|..]);
    }
  }

  // ---------------------------------------------------------------------
  // Bulk notes

  const UserNotFound: ShelfError := ShelfError("User not found", None, AssetsLabel, NoCause)

  function BulkFailed(message: string, cause: ShelfError): ShelfError {
    ShelfError(message, None, AssetsLabel, CausedBy(cause))
  }

  const BulkLocationMessage: string := "Something went wrong while creating bulk location change notes"
  const BulkKitMessage: string := "Something went wrong while creating bulk kit change notes"

  /** An asset whose location is being changed in bulk. */
  datatype LocatedAsset = LocatedAsset(id: Id, title: string, location: Option<Location>)

  /** The assets that are added to, or removed from, the location. */
  function Touched(assets: seq<LocatedAsset>, assetIds: seq<Id>, removedAssetIds: seq<Id>): (r: seq<LocatedAsset>)
    ensures |r| <= |assets|
    ensures forall a :: a in r <==> a in assets && (a.id in assetIds || a.id in removedAssetIds)
  {
    if |assets| == 0 then []
    else
      var rest := Touched(assets[1..], assetIds, removedAssetIds);
      var a := assets[0];
      if a.id in assetIds || a.id in removedAssetIds then [a] + rest else rest
  }

  /**
    The location note of one touched asset: a removed asset gets the
    removal note linking its current location, any other the update or set
    note linking the new location.
   */
  function BulkLocationNote(a: LocatedAsset, removedAssetIds: seq<Id>, location: Location,
                            user: UserName, userId: Id): (n: Note)
    ensures n.assetId == a.id && n.userId == userId && n.noteType == UpdateNote
    ensures a.id in removedAssetIds ==>
              Says(n.content, Author(user.firstName.GetOr(""), user.lastName.GetOr("")), LocationPhrase(RemovedLocation)) &&
              EndsWith(n.content, LocationLinkOrUndefined(a.location))
    ensures a.id !in removedAssetIds ==>
              Says(n.content, Author(user.firstName.GetOr(""), user.lastName.GetOr("")),
                   LocationPhrase(if a.location.Some? then UpdatedLocation else SetLocation)) &&
              EndsWith(n.content, LocationLink(Trim(location.name), location.id))
  {
    var isRemoving := a.id in removedAssetIds;
    LocationChangeNote(a.location, if isRemoving then None else Some(location),
                       user.firstName.GetOr(""), user.lastName.GetOr(""), a.title, a.id, userId, isRemoving)
  }

  /**
    One note per asset of `touched`, in order: a removed asset's note says
    it was removed, any other's links the location it moves to.
   */
  function LocationNotesFor(touched: seq<LocatedAsset>, removedAssetIds: seq<Id>, location: Location,
                            user: UserName, userId: Id): (r: seq<Note>)
    ensures |r| == |touched|
    ensures forall i :: 0 <= i < |r| ==> r[i] == BulkLocationNote(touched[i], removedAssetIds, location, user, userId)
    ensures forall i :: 0 <= i < |r| ==> r[i].assetId == touched[i].id && r[i].userId == userId
    ensures forall i :: 0 <= i < |r| && touched[i].id in removedAssetIds ==>
              Says(r[i].content, Author(user.firstName.GetOr(""), user.lastName.GetOr("")), LocationPhrase(RemovedLocation))
    ensures forall i :: 0 <= i < |r| && touched[i].id !in removedAssetIds ==>
              EndsWith(r[i].content, LocationLink(Trim(location.name), location.id))
  {
    seq(|touched|, i requires 0 <= i < |touched| => BulkLocationNote(touched[i], removedAssetIds, location, user, userId))
  }

  /**
    `createBulkLocationChangeNotes`: fails when the user does not exist;
    otherwise one note per added or removed asset, a removed asset getting
    the removal message.
   */
  function CreateBulkLocationChangeNotes(assets: seq<LocatedAsset>, assetIds: seq<Id>, removedAssetIds: seq<Id>,
                                         location: Location, users: map<Id, UserName>, userId: Id)
    : (r: Result<seq<Note>, ShelfError>)
    ensures userId !in users ==> r == Err(BulkFailed(BulkLocationMessage, UserNotFound))
    ensures userId in users ==> r.Ok? && |r.value| == |Touched(assets, assetIds, removedAssetIds)|
    ensures userId in users ==>
              forall i :: 0 <= i < |r.value| ==>
                r.value[i].assetId == Touched(assets, assetIds, removedAssetIds)[i].id &&
                (Touched(assets, assetIds, removedAssetIds)[i].id in removedAssetIds ==>
                   r.value[i] == LocationChangeNote(
                     Touched(assets, assetIds, removedAssetIds)[i].location, None,
                     users[userId].firstName.GetOr(""), users[userId].lastName.GetOr(""),
                     Touched(assets, assetIds, removedAssetIds)[i].title,
                     Touched(assets, assetIds, removedAssetIds)[i].id, userId, true))
    ensures userId in users ==>
              forall i :: 0 <= i < |r.value| && Touched(assets, assetIds, removedAssetIds)[i].id !in removedAssetIds ==>
                EndsWith(r.value[i].content, LocationLink(Trim(location.name), location.id))
  {
    if userId !in users then Err(BulkFailed(BulkLocationMessage, UserNotFound))
    else Ok(LocationNotesFor(Touched(assets, assetIds, removedAssetIds), removedAssetIds, location, users[userId], userId))
  }

  /** An asset whose kit is being changed in bulk, with the kit it is in. */
  datatype KitAsset = KitAsset(id: Id, title: string, kit: Option<Kit>)

  predicate ListsAsset(assets: seq<KitAsset>, id: Id) {
    exists i :: 0 <= i < |assets| && assets[i].id == id
  }

  /**
    The kit note of one asset of the bulk change, if any: a removed asset
    gets the removal note; any other gets a note linking the kit unless it
    already sits in it.
   */
  function BulkKitNote(a: KitAsset, removed: seq<KitAsset>, kit: Kit, user: UserName, userId: Id): (r: Option<Note>)
    ensures r.Some? ==> r.value.assetId == a.id && r.value.userId == userId
    ensures ListsAsset(removed, a.id) ==>
              r.Some? && Says(r.value.content, Author(user.firstName.GetOr(""), user.lastName.GetOr("")), KitPhrase(RemovedFromKit))
    ensures !ListsAsset(removed, a.id) ==>
              (r.None? <==> a.kit.Some? && a.kit.value.id == kit.id) &&
              (r.Some? ==> EndsWith(r.value.content, KitLink(Trim(kit.name), kit.id)))
  {
    var isRemoved := ListsAsset(removed, a.id);
    KitChangeNote(a.kit, if isRemoved then None else Some(kit),
                  user.firstName.GetOr(""), user.lastName.GetOr(""), a.title, a.id, userId, isRemoved)
  }

  /** A removed asset always gets the removal note, whichever kit it is in. */
  lemma RemovedAssetGetsRemovalNote(a: KitAsset, removed: seq<KitAsset>, kit: Kit, user: UserName, userId: Id)
    requires ListsAsset(removed, a.id)
    ensures KitNoteKindFor(a.kit, None, true) == RemovedFromKit
    ensures BulkKitNote(a, removed, kit, user, userId).Some?
  {
  }

  /** The notes that were written, in order: the `Some` entries of `notes`. */
  function Written(notes: seq<Option<Note>>): (r: seq<Note>)
    ensures |r| <= |notes|
    ensures forall n :: n in r <==> Some(n) in notes
  {
    if |notes| == 0 then []
    else
      var rest := Written(notes[1..]);
      assert forall x :: x in notes <==> x == notes[0] || x in notes[1..];
      match notes[0]
      case None => rest
      case Some(n) => [n] + rest
  }

  /**
    The kit note of each asset of `pending`, written or not: every removed
    asset has its removal note, and another asset has none exactly when it
    already sits in the kit.
   */
  function KitNotesFor(pending: seq<KitAsset>, removed: seq<KitAsset>, kit: Kit, user: UserName, userId: Id)
    : (r: seq<Option<Note>>)
    ensures |r| == |pending|
    ensures forall i :: 0 <= i < |r| ==> r[i] == BulkKitNote(pending[i], removed, kit, user, userId)
    ensures forall i :: 0 <= i < |r| && r[i].Some? ==> r[i].value.assetId == pending[i].id
    ensures forall i :: 0 <= i < |r| && ListsAsset(removed, pending[i].id) ==>
              r[i].Some? && Says(r[i].value.content, Author(user.firstName.GetOr(""), user.lastName.GetOr("")), KitPhrase(RemovedFromKit))
    ensures forall i :: 0 <= i < |r| && !ListsAsset(removed, pending[i].id) ==>
              (r[i].None? <==> pending[i].kit.Some? && pending[i].kit.value.id == kit.id)
  {
    seq(|pending|, i requires 0 <= i < |pending| => BulkKitNote(pending[i], removed, kit, user, userId))
  }

  /** A note at some position of `notes` is written. */
  lemma WrittenHas(notes: seq<Option<Note>>, j: nat)
    requires j < |notes| && notes[j].Some?
    ensures notes[j].value in Written(notes)
  {
    assert Some(notes[j].value) in notes;
  }

  /** Walking the newly added then the removed assets, every removed asset's note is written. */
  lemma WrittenRemovalNotes(newlyAdded: seq<KitAsset>, removed: seq<KitAsset>, kit: Kit, user: UserName, userId: Id)
    ensures forall i :: 0 <= i < |removed| ==>
              var n := BulkKitNote(removed[i], removed, kit, user, userId);
              n.Some? && n.value in Written(KitNotesFor(newlyAdded + removed, removed, kit, user, userId))
  {
    var pending := newlyAdded + removed;
    var notes := KitNotesFor(pending, removed, kit, user, userId);
    forall i | 0 <= i < |removed|
      ensures var n := BulkKitNote(removed[i], removed, kit, user, userId);
              n.Some? && n.value in Written(notes)
    {
      assert pending[|newlyAdded| + i] == removed[i];
      WrittenHas(notes, |newlyAdded| + i);
    }
  }

  /** Walking the newly added then the removed assets, every note a newly added asset gets is written. */
  lemma WrittenAddedNotes(newlyAdded: seq<KitAsset>, removed: seq<KitAsset>, kit: Kit, user: UserName, userId: Id)
    ensures forall i :: 0 <= i < |newlyAdded| && BulkKitNote(newlyAdded[i], removed, kit, user, userId).Some? ==>
              BulkKitNote(newlyAdded[i], removed, kit, user, userId).value
                in Written(KitNotesFor(newlyAdded + removed, removed, kit, user, userId))
  {
    var pending := newlyAdded + removed;
    var notes := KitNotesFor(pending, removed, kit, user, userId);
    forall i | 0 <= i < |newlyAdded| && BulkKitNote(newlyAdded[i], removed, kit, user, userId).Some?
      ensures BulkKitNote(newlyAdded[i], removed, kit, user, userId).value in Written(notes)
    {
      assert pending[i] == newlyAdded[i];
      WrittenHas(notes, i);
    }
  }

  /** Every written note is the note of one of the assets walked. */
  lemma WrittenNotesBelong(pending: seq<KitAsset>, removed: seq<KitAsset>, kit: Kit, user: UserName, userId: Id)
    ensures forall n :: n in Written(KitNotesFor(pending, removed, kit, user, userId)) ==>
              exists a :: a in pending && Some(n) == BulkKitNote(a, removed, kit, user, userId)
  {
    var notes := KitNotesFor(pending, removed, kit, user, userId);
    forall n | n in Written(notes)
      ensures exists a :: a in pending && Some(n) == BulkKitNote(a, removed, kit, user, userId)
    {
      var j :| 0 <= j < |notes| && notes[j] == Some(n);
      assert pending[j] in pending;
    }
  }

  /**
    `createBulkKitChangeNotes`: fails when the user does not exist;
    otherwise every removed asset gets a removal note, and a newly added
    asset gets a note unless it already sits in the kit.
   */
  function CreateBulkKitChangeNotes(newlyAdded: seq<KitAsset>, removed: seq<KitAsset>, kit: Kit,
                                    users: map<Id, UserName>, userId: Id): (r: Result<seq<Note>, ShelfError>)
    ensures userId !in users ==> r == Err(BulkFailed(BulkKitMessage, UserNotFound))
    ensures userId in users ==> r.Ok? && |r.value| <= |newlyAdded| + |removed|
    ensures userId in users ==>
              forall i :: 0 <= i < |removed| ==>
                var n := BulkKitNote(removed[i], removed, kit, users[userId], userId);
                n.Some? && n.value in r.value
    ensures userId in users ==>
              forall i :: 0 <= i < |newlyAdded| && !ListsAsset(removed, newlyAdded[i].id) &&
                          !(newlyAdded[i].kit.Some? && newlyAdded[i].kit.value.id == kit.id) ==>
                var n := BulkKitNote(newlyAdded[i], removed, kit, users[userId], userId);
                n.Some? && n.value in r.value
    ensures userId in users ==>
              forall n :: n in r.value ==> exists a :: a in newlyAdded + removed && Some(n) == BulkKitNote(a, removed, kit, users[userId], userId)
  {
    if userId !in users then Err(BulkFailed(BulkKitMessage, UserNotFound))
    else
      WrittenRemovalNotes(newlyAdded, removed, kit, users[userId], userId);
      WrittenAddedNotes(newlyAdded, removed, kit, users[userId], userId);
      WrittenNotesBelong(newlyAdded + removed, removed, kit, users[userId], userId);
      Ok(Written(KitNotesFor(newlyAdded + removed, removed, kit, users[userId], userId)))
  }

  /** A newly added asset already in the kit gets no note; one in another kit or none gets one. */
  lemma NewlyAddedNoteRule(a: KitAsset, removed: seq<KitAsset>, kit: Kit, user: UserName, userId: Id)
    requires !ListsAsset(removed, a.id)
    ensures BulkKitNote(a, removed, kit, user, userId).None? <==> a.kit.Some? && a.kit.value.id == kit.id
  {
  }
}

=== FILE: domain.dfy ===
/**
  Shared vocabulary of the Shelf booking and authorization logic: the
  failure-compatible wrappers, the closed status enumerations of the
  relational schema, and the structured application error.
 */
module Domain {

  /** An optional value; `None` stands for JavaScript's `null`/`undefined`. */
  datatype Option<+T> = None | Some(value: T) {
    function GetOr(default: T): T {
      match this
      case Some(v) => v
      case None => default
    }
  }

  /** The outcome of an operation that may throw. */
  datatype Result<+T, +E> = Ok(value: T) | Err(error: E) {
    predicate IsFailure() { Err? }

    function PropagateFailure<U>(): Result<U, E>
      requires Err?
    {
      Err(error)
    }

    function Extract(): T
      requires Ok?
    {
      value
    }
  }

  type Id = string

  /** Booking lifecycle states, in the schema's declaration order. */
  datatype BookingStatus =
    | DRAFT
    | RESERVED
    | ONGOING
    | OVERDUE
    | COMPLETE
    | ARCHIVED
    | CANCELLED

  const AllBookingStatuses: seq<BookingStatus> :=
    [DRAFT, RESERVED, ONGOING, OVERDUE, COMPLETE, ARCHIVED, CANCELLED]

  /** The enumerator's name, as the client sees it in a search param. */
  function BookingStatusName(s: BookingStatus): string {
    match s
    case DRAFT => "DRAFT"
    case RESERVED => "RESERVED"
    case ONGOING => "ONGOING"
    case OVERDUE => "OVERDUE"
    case COMPLETE => "COMPLETE"
    case ARCHIVED => "ARCHIVED"
    case CANCELLED => "CANCELLED"
  }

  datatype AssetStatus = AVAILABLE | IN_CUSTODY | CHECKED_OUT

  /** Why a `ShelfError` was raised: nothing, or another error it wraps. */
  datatype Cause = NoCause | CausedBy(inner: ShelfError)

  /**
    The application's structured error: a human message, an optional HTTP
    status, the label of the component that raised it, and its cause.
   */
  datatype ShelfError = ShelfError(
    message: string,
    status: Option<int>,
    errorLabel: string,
    cause: Cause)

  /** One second per unit: timestamps are integers counted in seconds. */
  const Hour: int := 3600

  /** JavaScript's `String.prototype.trim` whitespace set. */
  predicate IsJsWhitespace(c: char) {
    || c == ' ' || c == '\t' || c == '\n' || c == '\r'
    || c == '\U{000B}' || c == '\U{000C}' || c == '\U{00A0}' || c == '\U{1680}'
    || ('\U{2000}' <= c <= '\U{200A}')
    || c == '\U{2028}' || c == '\U{2029}' || c == '\U{202F}' || c == '\U{205F}'
    || c == '\U{3000}' || c == '\U{FEFF}'
  }

  /** `s` with leading whitespace removed. */
  function TrimStart(s: string): (r: string)
    ensures |r| <= |s| && r == s[|s| - |r|..]
    ensures |r| > 0 ==> !IsJsWhitespace(r[0])
    ensures forall i :: 0 <= i < |s| - |r| ==> IsJsWhitespace(s[i])
  {
    if |s| > 0 && IsJsWhitespace(s[0]) then TrimStart(s[1..]) else s
  }

  /** `s` with trailing whitespace removed. */
  function TrimEnd(s: string): (r: string)
    ensures |r| <= |s| && r == s[..|r|]
    ensures |r| > 0 ==> !IsJsWhitespace(r[|r| - 1])
    ensures forall i :: |r| <= i < |s| ==> IsJsWhitespace(s[i])
  {
    if |s| > 0 && IsJsWhitespace(s[|s| - 1]) then TrimEnd(s[..|s| - 1]) else s
  }

  /**
    `String.prototype.trim`: the infix of `s` left once the whitespace at
    both ends is gone.
   */
  function Trim(s: string): (r: string)
    ensures |r| <= |s|
    ensures |r| > 0 ==> !IsJsWhitespace(r[0]) && !IsJsWhitespace(r[|r| - 1])
    ensures exists k :: TrimmedAt(s, r, k)
  {
    var a := TrimStart(s);
    var r := TrimEnd(a);
    InfixOfInfix(s, a, r);
    WhitespaceAfterInfix(s, a, r);
    assert TrimmedAt(s, r, |s| - |a|);
    r
  }

  /** A prefix `r` of a suffix `a` of `s` is the infix of `s` where `a` starts. */
  lemma InfixOfInfix(s: string, a: string, r: string)
    requires |a| <= |s| && a == s[|s| - |a|..]
    requires |r| <= |a| && r == a[..|r|]
    ensures r == s[|s| - |a|..|s| - |a| + |r|]
  {
  }

  /** Whitespace after the prefix `r` of the suffix `a` of `s` is whitespace after the infix `r` of `s`. */
  lemma WhitespaceAfterInfix(s: string, a: string, r: string)
    requires |a| <= |s| && a == s[|s| - |a|..] && |r| <= |a|
    requires forall i :: |r| <= i < |a| ==> IsJsWhitespace(a[i])
    ensures forall i :: |s| - |a| + |r| <= i < |s| ==> IsJsWhitespace(s[i])
  {
    forall i | |s| - |a| + |r| <= i < |s| ensures IsJsWhitespace(s[i]) {
      assert s[i] == a[i - (|s| - |a|)];
    }
  }

  /** `r` is the infix of `s` at `k`, and everything of `s` around it is whitespace. */
  predicate TrimmedAt(s: string, r: string, k: int) {
    && 0 <= k <= |s| - |r| && r == s[k..k + |r|]
    && (forall i :: 0 <= i < k ==> IsJsWhitespace(s[i]))
    && (forall i :: k + |r| <= i < |s| ==> IsJsWhitespace(s[i]))
  }

  /** All of `s` is whitespace. */
  predicate AllWhitespace(s: string) {
    forall i :: 0 <= i < |s| ==> IsJsWhitespace(s[i])
  }

  /** Trimming a text padded with whitespace gives the text back, when the text itself does not start or end with whitespace. */
  lemma {:induction false} TrimPadded(p: string, x: string, q: string)
    requires AllWhitespace(p) && AllWhitespace(q)
    requires |x| > 0 && !IsJsWhitespace(x[0]) && !IsJsWhitespace(x[|x| - 1])
    ensures Trim(p + x + q) == x
  {
    TrimStartPadded(p, x + q);
    assert p + x + q == p + (x + q);
    TrimEndPadded(x, q);
  }

  lemma {:induction false} TrimStartPadded(p: string, t: string)
    requires AllWhitespace(p)
    requires |t| > 0 && !IsJsWhitespace(t[0])
    ensures TrimStart(p + t) == t
    decreases |p|
  {
    if |p| > 0 {
      assert (p + t)[1..] == p[1..] + t;
      TrimStartPadded(p[1..], t);
    } else {
      assert p + t == t;
    }
  }

  lemma {:induction false} TrimEndPadded(t: string, q: string)
    requires AllWhitespace(q)
    requires |t| > 0 && !IsJsWhitespace(t[|t| - 1])
    ensures TrimEnd(t + q) == t
    decreases |q|
  {
    if |q| > 0 {
      assert (t + q)[..|t + q| - 1] == t + q[..|q| - 1];
      TrimEndPadded(t, q[..|q| - 1]);
    } else {
      assert t + q == t;
    }
  }

  /** Trimming twice is trimming once. */
  lemma TrimIdempotent(s: string)
    ensures Trim(Trim(s)) == Trim(s)
  {
    var r := Trim(s);
    if |r| > 0 {
      TrimPadded([], r, []);
      assert [] + r + [] == r;
    }
  }

  /** The identifier of the asset-layer components, used as the label of their errors. */
  const AssetsLabel: string := "Assets"

  /** The pseudo category id the client sends to mean "no category". */
  const UncategorizedId: Id := "uncategorized"
}

=== FILE: env.dfy ===
/**
  Reading configuration from the environment: `getEnv` looks a name up in
  the browser's window env or in the process env, hides secrets from the
  browser, and fails when a required variable is missing or empty.
 */
module Env {
  import opened Domain

  /** The options object; a missing field is `None` (undefined, hence falsy). */
  datatype EnvOptions = EnvOptions(isSecret: Option<bool>, isRequired: Option<bool>)

  /** Where the code runs and what it can see; `windowEnv` is `None` when `window.env` is undefined. */
  datatype Runtime = Runtime(isBrowser: bool, windowEnv: Option<map<string, string>>,
                             processEnv: map<string, string>)

  /** The options used when none are passed: secret and required. */
  const DefaultOptions: EnvOptions := EnvOptions(Some(true), Some(true))

  function Truthy(b: Option<bool>): bool {
    b == Some(true)
  }

  /** The env the name is looked up in: the window's in the browser (or `{}`), the process's on the server. */
  function Source(rt: Runtime): (m: map<string, string>)
    ensures !rt.isBrowser ==> m == rt.processEnv
    ensures rt.isBrowser && rt.windowEnv.None? ==> m == map[]
  {
    if rt.isBrowser then rt.windowEnv.GetOr(map[]) else rt.processEnv
  }

  function NotSetMessage(name: string): string {
    name + " is not set"
  }

  /**
    `getEnv(name, options)`: `Err` is the thrown error's message, and
    `Ok(None)` is an undefined value.
   */
  function GetEnv(name: string, options: Option<EnvOptions>, rt: Runtime): (r: Result<Option<string>, string>)
    ensures var o := options.GetOr(DefaultOptions);
            rt.isBrowser && Truthy(o.isSecret) ==> r == Ok(Some(""))
    ensures var o := options.GetOr(DefaultOptions);
            !(rt.isBrowser && Truthy(o.isSecret)) ==>
              (r.Err? <==> Truthy(o.isRequired) && (name !in Source(rt) || Source(rt)[name] == ""))
    ensures r.Err? ==> r.error == NotSetMessage(name)
    ensures var o := options.GetOr(DefaultOptions);
            r.Ok? && !(rt.isBrowser && Truthy(o.isSecret)) ==>
              (r.value.Some? <==> name in Source(rt)) && (r.value.Some? ==> r.value.value == Source(rt)[name])
  {
    var o := options.GetOr(DefaultOptions);
    if rt.isBrowser && Truthy(o.isSecret) then Ok(Some(""))
    else
      var source := Source(rt);
      var value := if name in source then Some(source[name]) else None;
      if (value.None? || value.value == "") && Truthy(o.isRequired) then Err(NotSetMessage(name))
      else Ok(value)
  }

  /** Without options a variable is secret and required: hidden in the browser, mandatory on the server. */
  lemma DefaultsAreSecretAndRequired(name: string, rt: Runtime)
    ensures rt.isBrowser ==> GetEnv(name, None, rt) == Ok(Some(""))
    ensures !rt.isBrowser ==> (GetEnv(name, None, rt).Err? <==> name !in rt.processEnv || rt.processEnv[name] == "")
  {
  }

  /** An options object without `isRequired` makes the variable optional: it never fails. */
  lemma OptionsWithoutRequiredNeverFail(name: string, isSecret: Option<bool>, rt: Runtime)
    ensures GetEnv(name, Some(EnvOptions(isSecret, None)), rt).Ok?
  {
  }

  /** A public variable read in the browser depends on the window env only. */
  lemma BrowserIgnoresProcessEnv(name: string, o: EnvOptions, rt: Runtime, other: map<string, string>)
    requires rt.isBrowser
    ensures GetEnv(name, Some(o), rt) == GetEnv(name, Some(o), rt.(processEnv := other))
  {
  }
}

=== FILE: kit_picker.dfy ===
/**
  The kit picker of a booking: assets are grouped by kit, each kit is a
  row that is unavailable when one of its assets is not available or is
  booked elsewhere, and clicking an available row toggles the kit and all
  of its assets in the booking's selection.
 */
module KitPicker {
  import opened Domain

  datatype Kit = Kit(id: Id, name: string)
  datatype PickerBooking = PickerBooking(id: Id, status: BookingStatus)
  datatype PickerAsset = PickerAsset(id: Id, status: AssetStatus, kit: Option<Kit>, bookings: seq<PickerBooking>)

  // ---------------------------------------------------------------------
  // Grouping

  /** The grouping key `item?.kit?.id`. */
  function KeyOf(a: PickerAsset): Option<Id> {
    if a.kit.Some? then Some(a.kit.value.id) else None
  }

  function Keys(items: seq<PickerAsset>): (r: seq<Option<Id>>)
    ensures |r| == |items|
    ensures forall i :: 0 <= i < |r| ==> r[i] == KeyOf(items[i])
  {
    if |items| == 0 then [] else [KeyOf(items[0])] + Keys(items[1..])
  }

  /** The distinct elements of `s`, in order of first occurrence. */
  function Distinct(s: seq<Option<Id>>): (r: seq<Option<Id>>)
    ensures forall x :: x in r <==> x in s
    ensures forall i, j :: 0 <= i < j < |r| ==> r[i] != r[j]
    ensures |r| <= |s|
  {
    if |s| == 0 then []
    else
      var d := Distinct(s[..|s| - 1]);
      assert s == s[..|s| - 1] + [s[|s| - 1]];
      if s[|s| - 1] in d then d else d + [s[|s| - 1]]
  }

  /** The items with the given key, in order. */
  function GroupOf(items: seq<PickerAsset>, key: Option<Id>): (r: seq<PickerAsset>)
    ensures forall a :: a in r <==> a in items && KeyOf(a) == key
    ensures (exists i :: 0 <= i < |items| && KeyOf(items[i]) == key) ==> |r| > 0
  {
    if |items| == 0 then []
    else
      var rest := GroupOf(items[1..], key);
      assert forall i :: 1 <= i < |items| ==> items[i] == items[1..][i - 1];
      if KeyOf(items[0]) == key then [items[0]] + rest else rest
  }

  function Ids(assets: seq<PickerAsset>): (r: seq<Id>)
    ensures |r| == |assets|
    ensures forall i :: 0 <= i < |r| ==> r[i] == assets[i].id
  {
    if |assets| == 0 then [] else [assets[0].id] + Ids(assets[1..])
  }

  // ---------------------------------------------------------------------
  // Availability of a kit

  predicate Blocking(s: BookingStatus) {
    s == ONGOING || s == OVERDUE || s == RESERVED
  }

  /** The bookings of the first asset that has any, or none. */
  function KitBookings(assets: seq<PickerAsset>): (r: seq<PickerBooking>)
    ensures |r| > 0 <==> exists i :: 0 <= i < |assets| && |assets[i].bookings| > 0
    ensures forall i :: (0 <= i < |assets| && |assets[i].bookings| > 0 &&
                         forall j :: 0 <= j < i ==> |assets[j].bookings| == 0) ==> r == assets[i].bookings
  {
    if |assets| == 0 then []
    else if |assets[0].bookings| > 0 then assets[0].bookings
    else KitBookings(assets[1..])
  }

  predicate AnyBlocking(bookings: seq<PickerBooking>) {
    exists i :: 0 <= i < |bookings| && Blocking(bookings[i].status)
  }

  /** Whether the booking being edited is among `bookings`; an absent booking id matches nothing. */
  predicate HasCurrent(bookings: seq<PickerBooking>, bookingId: Option<Id>) {
    bookingId.Some? && exists i :: 0 <= i < |bookings| && bookings[i].id == bookingId.value
  }

  /**
    A kit cannot be picked when one of its assets is not available, or when
    the bookings of its first booked asset hold a reserved, ongoing or
    overdue one and none of them is the booking being edited.
   */
  function KitUnavailable(assets: seq<PickerAsset>, bookingId: Option<Id>): (r: bool)
    ensures (exists i :: 0 <= i < |assets| && assets[i].status != AVAILABLE) ==> r
    ensures (forall i :: 0 <= i < |assets| ==> assets[i].status == AVAILABLE && |assets[i].bookings| == 0) ==> !r
    ensures forall i :: (0 <= i < |assets| && |assets[i].bookings| > 0 &&
                         forall j :: 0 <= j < i ==> |assets[j].bookings| == 0) ==>
              (r <==> (exists k :: 0 <= k < |assets| && assets[k].status != AVAILABLE) ||
                      (AnyBlocking(assets[i].bookings) && !HasCurrent(assets[i].bookings, bookingId)))
  {
    var assetNotAvailable := exists i :: 0 <= i < |assets| && assets[i].status != AVAILABLE;
    var kitBookings := KitBookings(assets);
    assetNotAvailable || (AnyBlocking(kitBookings) && !HasCurrent(kitBookings, bookingId))
  }

  // ---------------------------------------------------------------------
  // Rows

  datatype KitRow = KitRow(kit: Kit, assetIds: seq<Id>, notAvailable: bool)

  /** The row of the kit with id `kitId`, when some item is in that kit. */
  function RowFor(items: seq<PickerAsset>, kitId: Id, bookingId: Option<Id>): (r: Option<KitRow>)
    ensures r.Some? <==> exists i :: 0 <= i < |items| && KeyOf(items[i]) == Some(kitId)
    ensures r.Some? ==> r.value.kit.id == kitId &&
                        r.value.assetIds == Ids(GroupOf(items, Some(kitId))) &&
                        r.value.notAvailable == KitUnavailable(GroupOf(items, Some(kitId)), bookingId)
  {
    var group := GroupOf(items, Some(kitId));
    if |group| == 0 then None
    else
      assert group[0] in group;
      Some(KitRow(group[0].kit.value, Ids(group), KitUnavailable(group, bookingId)))
  }

  /** One row per kit key, in key order; the key of assets without a kit gives no row. */
  function RowsFor(keys: seq<Option<Id>>, items: seq<PickerAsset>, bookingId: Option<Id>): (r: seq<KitRow>)
    ensures |r| <= |keys|
    ensures forall row :: row in r ==> Some(row.kit.id) in keys && RowFor(items, row.kit.id, bookingId) == Some(row)
    ensures forall k :: k in keys && k.Some? && RowFor(items, k.value, bookingId).Some? ==>
              RowFor(items, k.value, bookingId).value in r
  {
    if |keys| == 0 then []
    else
      var rest := RowsFor(keys[1..], items, bookingId);
      if keys[0].None? then rest
      else
        match RowFor(items, keys[0].value, bookingId)
        case None => rest
        case Some(row) => [row] + rest
  }

  /**
    The rows of the picker, in order of the kits' first appearance: every
    row is the row of a kit among the items, and every item in a kit is
    listed in its kit's row.
   */
  function KitRows(items: seq<PickerAsset>, bookingId: Option<Id>): (r: seq<KitRow>)
    ensures forall row :: row in r ==> RowFor(items, row.kit.id, bookingId) == Some(row)
    ensures forall i :: 0 <= i < |items| && items[i].kit.Some? ==>
              exists row :: row in r && row.kit.id == items[i].kit.value.id && items[i].id in row.assetIds
    ensures forall i, j :: 0 <= i < j < |r| ==> r[i].kit.id != r[j].kit.id
  {
    var keys := Distinct(Keys(items));
    var rows := RowsFor(keys, items, bookingId);
    forall i | 0 <= i < |items| && items[i].kit.Some?
      ensures exists row :: row in rows && row.kit.id == items[i].kit.value.id && items[i].id in row.assetIds
    {
      var k := Some(items[i].kit.value.id);
      assert Keys(items)[i] == k;
      var row := RowFor(items, k.value, bookingId).value;
      var g := GroupOf(items, k);
      assert items[i] in g;
      var j :| 0 <= j < |g| && g[j] == items[i];
      assert Ids(g)[j] == items[i].id;
      assert row in rows;
    }
    DistinctRows(keys, items, bookingId);
    rows
  }

  lemma {:induction false} DistinctRows(keys: seq<Option<Id>>, items: seq<PickerAsset>, bookingId: Option<Id>)
    requires forall i, j :: 0 <= i < j < |keys| ==> keys[i] != keys[j]
    ensures forall i, j :: 0 <= i < j < |RowsFor(keys, items, bookingId)| ==>
              RowsFor(keys, items, bookingId)[i].kit.id != RowsFor(keys, items, bookingId)[j].kit.id
  {
    if |keys| > 0 {
      DistinctRows(keys[1..], items, bookingId);
      var rest := RowsFor(keys[1..], items, bookingId);
      var r := RowsFor(keys, items, bookingId);
      if r != rest {
        assert keys[0] !in keys[1..] by {
          forall j | 0 <= j < |keys[1..]| ensures keys[1..][j] != keys[0] {
            assert keys[1..][j] == keys[j + 1];
          }
        }
        forall j | 0 <= j < |rest| ensures rest[j].kit.id != r[0].kit.id {
          assert rest[j] in rest;
        }
        assert r == [r[0]] + rest;
      }
    }
  }

  // ---------------------------------------------------------------------
  // Selection

  datatype Selection = Selection(assets: seq<Id>, kits: seq<Id>)

  /** `xs` without the elements of `drop`, in order. */
  function Without(xs: seq<Id>, drop: seq<Id>): (r: seq<Id>)
    ensures forall x :: x in r <==> x in xs && x !in drop
    ensures |r| <= |xs|
  {
    if |xs| == 0 then []
    else if xs[0] in drop then Without(xs[1..], drop)
    else [xs[0]] + Without(xs[1..], drop)
  }

  /** `handleKitAndAssetSelection`: deselecting drops the kit and its assets, selecting appends them. */
  function HandleSelection(sel: Selection, isKitSelected: bool, kitId: Id, assetIds: seq<Id>): (r: Selection)
    ensures isKitSelected ==> forall x :: x in r.assets <==> x in sel.assets && x !in assetIds
    ensures !isKitSelected ==> r.assets == sel.assets + assetIds
    ensures kitId in sel.kits ==> forall k :: k in r.kits <==> k in sel.kits && k != kitId
    ensures kitId !in sel.kits ==> r.kits == sel.kits + [kitId]
  {
    Selection(
      if isKitSelected then Without(sel.assets, assetIds) else sel.assets + assetIds,
      if kitId in sel.kits then Without(sel.kits, [kitId]) else sel.kits + [kitId])
  }

  /** Clicking a row: nothing happens on an unavailable kit. */
  function Click(sel: Selection, row: KitRow): (r: Selection)
    ensures row.notAvailable ==> r == sel
    ensures !row.notAvailable && row.kit.id !in sel.kits ==>
              row.kit.id in r.kits && forall x :: x in row.assetIds ==> x in r.assets
    ensures !row.notAvailable && row.kit.id in sel.kits ==>
              row.kit.id !in r.kits && forall x :: x in row.assetIds ==> x !in r.assets
  {
    if row.notAvailable then sel
    else HandleSelection(sel, row.kit.id in sel.kits, row.kit.id, row.assetIds)
  }

  lemma {:induction false} WithoutDisjoint(xs: seq<Id>, drop: seq<Id>)
    requires forall x :: x in xs ==> x !in drop
    ensures Without(xs, drop) == xs
  {
    if |xs| > 0 {
      WithoutDisjoint(xs[1..], drop);
      assert [xs[0]] + xs[1..] == xs;
    }
  }

  lemma {:induction false} WithoutAppended(xs: seq<Id>, ys: seq<Id>, drop: seq<Id>)
    requires forall y :: y in ys ==> y in drop
    ensures Without(xs + ys, drop) == Without(xs, drop)
  {
    if |xs| == 0 {
      assert xs + ys == ys;
      WithoutAll(ys, drop);
    } else {
      assert (xs + ys)[1..] == xs[1..] + ys;
      WithoutAppended(xs[1..], ys, drop);
    }
  }

  lemma {:induction false} WithoutAll(ys: seq<Id>, drop: seq<Id>)
    requires forall y :: y in ys ==> y in drop
    ensures Without(ys, drop) == []
  {
    if |ys| > 0 {
      WithoutAll(ys[1..], drop);
    }
  }

  /**
    Clicking an available kit twice, starting from a selection that holds
    neither the kit nor any of its assets, restores the selection.
   */
  lemma ClickTwiceRestores(sel: Selection, row: KitRow)
    requires !row.notAvailable
    requires row.kit.id !in sel.kits
    requires forall x :: x in sel.assets ==> x !in row.assetIds
    ensures Click(Click(sel, row), row) == sel
  {
    var once := Click(sel, row);
    assert once.kits == sel.kits + [row.kit.id];
    WithoutAppended(sel.assets, row.assetIds, row.assetIds);
    WithoutDisjoint(sel.assets, row.assetIds);
    WithoutAppended(sel.kits, [row.kit.id], [row.kit.id]);
    WithoutDisjoint(sel.kits, [row.kit.id]);
  }
}

=== FILE: pagination.dfy ===
/**
  The pagination bar of a list: the page numbers it shows and when its
  previous and next buttons are disabled.
 */
module Pagination {

  /** The page buttons: 1, 2, ..., totalPages. */
  method PageNumbers(totalPages: int) returns (pages: seq<int>)
    ensures |pages| == (if totalPages > 0 then totalPages else 0)
    ensures forall k :: 0 <= k < |pages| ==> pages[k] == k + 1
    ensures forall k, l :: 0 <= k < l < |pages| ==> pages[k] < pages[l]
  {
    pages := [];
    var i := 1;
    while i <= totalPages
      invariant 1 <= i <= (if totalPages > 0 then totalPages else 0) + 1
      invariant |pages| == i - 1
      invariant forall k :: 0 <= k < |pages| ==> pages[k] == k + 1
    {
      pages := pages + [i];
      i := i + 1;
    }
  }

  predicate PrevDisabled(totalPages: int, page: int) {
    totalPages <= 1 || page <= 1
  }

  predicate NextDisabled(totalPages: int, page: int, perPage: int, totalItems: int) {
    totalPages <= 1 || page * perPage >= totalItems
  }

  /** `Math.ceil(n / d)` for a positive divisor. */
  function CeilDiv(n: int, d: int): (r: int)
    requires d > 0
    ensures r * d >= n
    ensures (r - 1) * d < n
  {
    var q := n / d;
    if q * d == n then q else q + 1
  }

  lemma MulMonotonic(a: int, b: int, d: int)
    requires a <= b
    requires d > 0
    ensures a * d <= b * d
  {
  }

  /**
    With the page count a list computes, next is disabled exactly from the
    last page on, whenever there is more than one page.
   */
  lemma {:induction false} NextDisabledFromLastPage(page: int, perPage: int, totalItems: int)
    requires perPage > 0
    requires CeilDiv(totalItems, perPage) > 1
    ensures NextDisabled(CeilDiv(totalItems, perPage), page, perPage, totalItems)
            <==> page >= CeilDiv(totalItems, perPage)
  {
    var t := CeilDiv(totalItems, perPage);
    if page >= t {
      MulMonotonic(t, page, perPage);
    } else {
      MulMonotonic(page, t - 1, perPage);
    }
  }

  /** On page ceil(totalItems / perPage), next is disabled. */
  lemma LastPageDisablesNext(perPage: int, totalItems: int)
    requires perPage > 0
    ensures NextDisabled(CeilDiv(totalItems, perPage), CeilDiv(totalItems, perPage), perPage, totalItems)
  {
  }

  /** Previous is enabled exactly on pages after the first, when there is more than one page. */
  lemma PrevEnabledAfterFirstPage(totalPages: int, page: int)
    requires totalPages > 1
    ensures !PrevDisabled(totalPages, page) <==> page >= 2
  {
  }
}

=== FILE: permissions.dfy ===
/**
  The organization permission resolver: a user's roles in an organization,
  an entity and an action decide allow or deny. OWNER and ADMIN may do
  anything; every other role is looked up in a static role table.
 */
module Permissions {
  import opened Domain

  /**
    Organization roles. The three the resolver names are explicit; any other
    role of the schema is `Other`, and has no row in the role table.
   */
  datatype Role = OWNER | ADMIN | SELF_SERVICE | Other(name: string)

  datatype Entity =
    | asset | booking | qr | category | customField | location | tag
    | teamMember | workspace | dashboard | generalSettings | subscription
    | template

  datatype Action = create | read | update | delete

  /**
    The static role table: `None` when the role has no row, otherwise the
    actions the role may perform on `entity`.
   */
  function RolePermissions(role: Role, entity: Entity): Option<seq<Action>> {
    match role
    case SELF_SERVICE =>
      Some(match entity
           case asset => [read]
           case booking => [create, read, update, delete]
           case template => [create, read, update]
           case _ => [])
    case _ => None
  }

  /** True when the role's table row lists `action` for `entity`. */
  predicate RoleGrants(role: Role, entity: Entity, action: Action) {
    match RolePermissions(role, entity)
    case None => false
    case Some(actions) => action in actions
  }

  /** `roles.filter(...)`: the roles whose table row grants the action, in order. */
  function ValidRoles(roles: seq<Role>, entity: Entity, action: Action): (r: seq<Role>)
    ensures |r| <= |roles|
    ensures forall x :: x in r <==> x in roles && RoleGrants(x, entity, action)
    ensures |r| > 0 <==> exists i :: 0 <= i < |roles| && RoleGrants(roles[i], entity, action)
  {
    if |roles| == 0 then []
    else
      var rest := ValidRoles(roles[1..], entity, action);
      if RoleGrants(roles[0], entity, action) then [roles[0]] + rest else rest
  }

  /** The decision taken once the roles are known (lines 59-79 of the validator). */
  function Decide(roles: seq<Role>, entity: Entity, action: Action): (allowed: bool)
    ensures (ADMIN in roles || OWNER in roles) ==> allowed
    ensures !(ADMIN in roles || OWNER in roles) ==>
              (allowed <==> exists i :: 0 <= i < |roles| && RoleGrants(roles[i], entity, action))
  {
    if ADMIN in roles || OWNER in roles then true
    else |ValidRoles(roles, entity, action)| > 0
  }

  /** The inputs of a check; `roles` is `None` when the caller supplied none. */
  datatype PermissionCheck = PermissionCheck(
    userId: Id,
    organizationId: Id,
    entity: Entity,
    action: Action,
    roles: Option<seq<Role>>)

  /** The user-organization membership rows: the roles of a user in an organization. */
  type Memberships = map<(Id, Id), seq<Role>>

  const PermissionLabel: string := "Permission"

  const NotAMemberError: ShelfError :=
    ShelfError("User doesn't belong to organization", Some(403), PermissionLabel, NoCause)

  /** Every failure inside the check is rethrown wrapped in this error. */
  function CheckFailed(cause: ShelfError): ShelfError {
    ShelfError("Error while checking permission", None, PermissionLabel, CausedBy(cause))
  }

  const UnauthorizedError: ShelfError :=
    ShelfError("You have no permission to perform this action", Some(403), PermissionLabel, NoCause)

  /**
    `hasPermission`: supplied roles are used as they are; otherwise the
    membership row is read, and a missing row is an error, rethrown as a
    Permission-labelled check failure.
   */
  function HasPermission(p: PermissionCheck, db: Memberships): (r: Result<bool, ShelfError>)
    ensures p.roles.Some? ==> r == Ok(Decide(p.roles.value, p.entity, p.action))
    ensures p.roles.None? && (p.userId, p.organizationId) !in db ==>
              r == Err(CheckFailed(NotAMemberError))
    ensures p.roles.None? && (p.userId, p.organizationId) in db ==>
              r == Ok(Decide(db[(p.userId, p.organizationId)], p.entity, p.action))
    ensures r.Err? ==> r.error.errorLabel == PermissionLabel && r.error.cause.CausedBy?
  {
    var roles :=
      if p.roles.Some? then Ok(p.roles.value)
      else if (p.userId, p.organizationId) in db then Ok(db[(p.userId, p.organizationId)])
      else Err(NotAMemberError);
    match roles
    case Err(e) => Err(CheckFailed(e))
    case Ok(rs) => Ok(Decide(rs, p.entity, p.action))
  }

  /**
    `validatePermission`: returns normally when the check allows, throws a
    403 Unauthorized error when it denies, and lets a failed check through.
   */
  function ValidatePermission(p: PermissionCheck, db: Memberships): (r: Result<(), ShelfError>)
    ensures r.Ok? <==> HasPermission(p, db) == Ok(true)
    ensures HasPermission(p, db) == Ok(false) <==> r == Err(UnauthorizedError)
    ensures HasPermission(p, db).Err? ==> r == Err(HasPermission(p, db).error)
  {
    var allowed :- HasPermission(p, db);
    if allowed then Ok(()) else Err(UnauthorizedError)
  }

  /** OWNER and ADMIN are allowed every action on every entity. */
  lemma OwnerOrAdminAllowsEverything(roles: seq<Role>)
    requires OWNER in roles || ADMIN in roles
    ensures forall e: Entity, a: Action :: Decide(roles, e, a)
  {
  }

  /** A role without a table row grants nothing, so alone it is denied everything. */
  lemma RoleWithoutRowGrantsNothing(role: Role, entity: Entity, action: Action)
    requires forall e :: RolePermissions(role, e).None?
    ensures !RoleGrants(role, entity, action)
    ensures role != OWNER && role != ADMIN ==> !Decide([role], entity, action)
  {
  }

  /** Adding roles never turns allow into deny. */
  lemma {:induction false} DecideMonotonic(roles: seq<Role>, more: seq<Role>, entity: Entity, action: Action)
    requires forall x :: x in roles ==> x in more
    requires Decide(roles, entity, action)
    ensures Decide(more, entity, action)
  {
    if !(ADMIN in more || OWNER in more) {
      var i :| 0 <= i < |roles| && RoleGrants(roles[i], entity, action);
      var j :| 0 <= j < |more| && more[j] == roles[i];
    }
  }

  /** SELF_SERVICE's row, entity by entity. */
  lemma SelfServiceGrants(entity: Entity, action: Action)
    ensures entity == asset ==> (RoleGrants(SELF_SERVICE, entity, action) <==> action == read)
    ensures entity == booking ==> RoleGrants(SELF_SERVICE, entity, action)
    ensures entity == template ==> (RoleGrants(SELF_SERVICE, entity, action) <==> action != delete)
    ensures entity !in {asset, booking, template} ==> !RoleGrants(SELF_SERVICE, entity, action)
  {
  }

  /** A SELF_SERVICE-only member is denied every action on QR codes and workspaces. */
  lemma SelfServiceDeniedOnQr(action: Action)
    ensures !Decide([SELF_SERVICE], qr, action)
    ensures !Decide([SELF_SERVICE], workspace, action)
  {
  }
}

=== FILE: reminders.dfy ===
/**
  The booking reminder chain. Four handlers fire in turn for one booking:
  checkout-reminder, checkin-reminder, overdue-handler, overdue-reminder.
  Each re-reads the booking, may send an email, may flip ONGOING to
  OVERDUE, and schedules the next stage at a time derived from `to`.
  Here one step function stands for all four handlers; the booking table
  is a map and the scheduler's queue receives the optional successor job.
 */
module BookingWorker {
  import opened Domain

  datatype Stage = CheckoutReminder | CheckinReminder | OverdueHandler | OverdueReminder

  /** The booking columns the handlers read. `custodianEmail` is `None` without a custodian user. */
  datatype Booking = Booking(
    id: Id,
    name: string,
    status: BookingStatus,
    from: Option<int>,
    to: Option<int>,
    custodianEmail: Option<string>,
    assetCount: nat)

  type Store = map<Id, Booking>

  /** A scheduler entry: the handler to fire, its `{ id }` payload, and when. */
  datatype Job = Job(stage: Stage, bookingId: Id, when: int)

  datatype EmailKind =
    | CheckoutReminderEmail(assetsCount: nat)
    | CheckinReminderEmail(assetsCount: nat)
    | OverdueReminderEmail

  datatype Email = Email(to: string, subject: string, kind: EmailKind)

  /**
    What one handler run leaves behind: the booking table, the emails it
    asked the mailer to send, those the mailer accepted, and the job it
    scheduled.
   */
  datatype StepResult = StepResult(
    store: Store,
    attempted: seq<Email>,
    delivered: seq<Email>,
    next: Option<Job>)

  const ReminderSubject: string := "Checkout reminder - shelf.nu"
  const OverdueSubject: string := "overdue reminder"

  /** The custodian user's address, when there is one and it is not empty. */
  function Recipient(b: Booking): (r: Option<string>)
    ensures r.Some? <==> b.custodianEmail.Some? && b.custodianEmail.value != ""
    ensures r.Some? ==> r.value == b.custodianEmail.value
  {
    match b.custodianEmail
    case Some(e) => if e != "" then Some(e) else None
    case None => None
  }

  /** Sending is best-effort: a failed send is logged and the handler carries on. */
  function Send(emails: seq<Email>, mailerUp: bool): seq<Email> {
    if mailerUp then emails else []
  }

  /** A handler that returned early: nothing changed, nothing sent, nothing scheduled. */
  function Skip(store: Store): StepResult {
    StepResult(store, [], [], None)
  }

  /** The checkout-reminder handler. */
  function CheckoutReminderStep(id: Id, store: Store, mailerUp: bool): (r: StepResult)
    ensures r.store == store
    ensures id !in store ==> r.attempted == [] && r.next == None
    ensures |r.attempted| > 0 <==>
              id in store && Recipient(store[id]).Some? && store[id].from.Some? && store[id].to.Some?
    ensures |r.attempted| > 0 ==>
              r.attempted == [Email(Recipient(store[id]).value, ReminderSubject,
                                    CheckoutReminderEmail(store[id].assetCount))]
    ensures r.next.Some? <==> id in store && store[id].to.Some?
    ensures r.next.Some? ==> r.next.value == Job(CheckinReminder, id, store[id].to.value - Hour)
  {
    if id !in store then Skip(store)
    else
      var b := store[id];
      var emails :=
        if Recipient(b).Some? && b.from.Some? && b.to.Some?
        then [Email(Recipient(b).value, ReminderSubject, CheckoutReminderEmail(b.assetCount))]
        else [];
      var next := if b.to.Some? then Some(Job(CheckinReminder, id, b.to.value - Hour)) else None;
      StepResult(store, emails, Send(emails, mailerUp), next)
  }

  /** The checkin-reminder handler; its email reuses the checkout subject and reports zero assets. */
  function CheckinReminderStep(id: Id, store: Store, mailerUp: bool): (r: StepResult)
    ensures r.store == store
    ensures id !in store ==> r.attempted == [] && r.next == None
    ensures |r.attempted| > 0 <==>
              id in store && Recipient(store[id]).Some? && store[id].from.Some? && store[id].to.Some?
    ensures |r.attempted| > 0 ==>
              r.attempted == [Email(Recipient(store[id]).value, ReminderSubject, CheckinReminderEmail(0))]
    ensures r.next.Some? <==> id in store && store[id].to.Some?
    ensures r.next.Some? ==> r.next.value == Job(OverdueHandler, id, store[id].to.value)
  {
    if id !in store then Skip(store)
    else
      var b := store[id];
      var emails :=
        if Recipient(b).Some? && b.from.Some? && b.to.Some?
        then [Email(Recipient(b).value, ReminderSubject, CheckinReminderEmail(0))]
        else [];
      var next := if b.to.Some? then Some(Job(OverdueHandler, id, b.to.value)) else None;
      StepResult(store, emails, Send(emails, mailerUp), next)
  }

  /**
    The overdue handler: a conditional update of an ONGOING booking to
    OVERDUE. When no ONGOING booking has that id the update matches no row
    and nothing changes and nothing is scheduled.
   */
  function OverdueHandlerStep(id: Id, store: Store): (r: StepResult)
    ensures r.attempted == [] && r.delivered == []
    ensures r.store.Keys == store.Keys
    ensures forall k :: k in store && k != id ==> r.store[k] == store[k]
    ensures id in store && store[id].status == ONGOING ==>
              r.store[id] == store[id].(status := OVERDUE)
    ensures !(id in store && store[id].status == ONGOING) ==> r.store == store && r.next == None
    ensures r.next.Some? <==> id in store && store[id].status == ONGOING && store[id].to.Some?
    ensures r.next.Some? ==> r.next.value == Job(OverdueReminder, id, store[id].to.value + Hour)
  {
    if id in store && store[id].status == ONGOING then
      var b := store[id].(status := OVERDUE);
      var next := if b.to.Some? then Some(Job(OverdueReminder, id, b.to.value + Hour)) else None;
      StepResult(store[id := b], [], [], next)
    else
      Skip(store)
  }

  /** The overdue reminder: acts only on an OVERDUE booking, and ends the chain. */
  function OverdueReminderStep(id: Id, store: Store, mailerUp: bool): (r: StepResult)
    ensures r.store == store && r.next == None
    ensures |r.attempted| > 0 <==>
              id in store && store[id].status == OVERDUE && Recipient(store[id]).Some?
    ensures |r.attempted| > 0 ==>
              r.attempted == [Email(Recipient(store[id]).value, OverdueSubject, OverdueReminderEmail)]
  {
    if id !in store || store[id].status != OVERDUE then Skip(store)
    else
      var b := store[id];
      var emails :=
        if Recipient(b).Some? then [Email(Recipient(b).value, OverdueSubject, OverdueReminderEmail)] else [];
      StepResult(store, emails, Send(emails, mailerUp), None)
  }

  /** The registered handlers, dispatched on the job's stage. */
  function Step(stage: Stage, id: Id, store: Store, mailerUp: bool): StepResult {
    match stage
    case CheckoutReminder => CheckoutReminderStep(id, store, mailerUp)
    case CheckinReminder => CheckinReminderStep(id, store, mailerUp)
    case OverdueHandler => OverdueHandlerStep(id, store)
    case OverdueReminder => OverdueReminderStep(id, store, mailerUp)
  }

  /** Position of a stage in the chain. */
  function Rank(stage: Stage): nat {
    match stage
    case CheckoutReminder => 0
    case CheckinReminder => 1
    case OverdueHandler => 2
    case OverdueReminder => 3
  }

  /**
    Every successor job is for the same booking, for the stage right after
    the current one, and never earlier than the job that would have come
    before it when `to` stays put; the mailer's health never changes what
    is scheduled or stored.
   */
  lemma StepAdvancesChain(stage: Stage, id: Id, store: Store, mailerUp: bool)
    ensures var r := Step(stage, id, store, mailerUp);
            r.next.Some? ==> r.next.value.bookingId == id && Rank(r.next.value.stage) == Rank(stage) + 1
    ensures var r := Step(stage, id, store, mailerUp);
            r.next.Some? ==> id in store && store[id].to.Some? &&
                             r.next.value.when == store[id].to.value + (Rank(stage) - 1) * Hour
    ensures Step(stage, id, store, mailerUp).store == Step(stage, id, store, !mailerUp).store
    ensures Step(stage, id, store, mailerUp).next == Step(stage, id, store, !mailerUp).next
    ensures Step(stage, id, store, mailerUp).attempted == Step(stage, id, store, !mailerUp).attempted
  {
  }

  /** The only status change any handler makes is ONGOING to OVERDUE of the job's own booking. */
  lemma StepOnlyMarksOverdue(stage: Stage, id: Id, store: Store, mailerUp: bool, k: Id)
    requires k in store
    ensures var s' := Step(stage, id, store, mailerUp).store;
            k in s' && (s'[k] == store[k] ||
                        (k == id && stage == OverdueHandler && store[k].status == ONGOING &&
                         s'[k] == store[k].(status := OVERDUE)))
  {
  }

  /**
    At-least-once delivery: a second overdue-handler run on the table the
    first one left is a no-op that schedules nothing.
   */
  lemma OverdueHandlerIdempotent(id: Id, store: Store)
    ensures var once := OverdueHandlerStep(id, store).store;
            OverdueHandlerStep(id, once).store == once && OverdueHandlerStep(id, once).next == None
  {
  }

  /** A missing booking ends the chain at any stage, silently. */
  lemma MissingBookingEndsChain(stage: Stage, id: Id, store: Store, mailerUp: bool)
    requires id !in store
    ensures Step(stage, id, store, mailerUp) == Skip(store)
  {
  }

  /**
    Runs the chain from `stage` on, firing each scheduled job with nothing
    else touching the table in between; the result is every job scheduled
    along the way, every email attempted, and the final table.
   */
  function RunChain(stage: Stage, id: Id, store: Store): (r: (seq<Job>, seq<Email>, Store))
    ensures |r.0| <= 3 - Rank(stage)
    decreases 3 - Rank(stage)
  {
    var s := Step(stage, id, store, true);
    match s.next
    case None => ([], s.attempted, s.store)
    case Some(job) =>
      StepAdvancesChain(stage, id, store, true);
      var rest := RunChain(job.stage, id, s.store);
      ([job] + rest.0, s.attempted + rest.1, rest.2)
  }

  /**
    An ONGOING booking with a return date `T` that nobody touches runs the
    whole chain: jobs at `T - 1h`, `T` and `T + 1h`, in stage order, and it
    ends OVERDUE.
   */
  lemma {:induction false} OngoingBookingRunsFullChain(id: Id, store: Store)
    requires id in store && store[id].status == ONGOING && store[id].to.Some?
    ensures var T := store[id].to.value;
            RunChain(CheckoutReminder, id, store).0 ==
              [Job(CheckinReminder, id, T - Hour), Job(OverdueHandler, id, T), Job(OverdueReminder, id, T + Hour)]
    ensures RunChain(CheckoutReminder, id, store).2 == store[id := store[id].(status := OVERDUE)]
  {
    var T := store[id].to.value;
    var s1 := Step(CheckoutReminder, id, store, true);
    assert s1.next == Some(Job(CheckinReminder, id, T - Hour)) && s1.store == store;
    var s2 := Step(CheckinReminder, id, store, true);
    assert s2.next == Some(Job(OverdueHandler, id, T)) && s2.store == store;
    var s3 := Step(OverdueHandler, id, store, true);
    var store' := store[id := store[id].(status := OVERDUE)];
    assert s3.next == Some(Job(OverdueReminder, id, T + Hour)) && s3.store == store';
    var s4 := Step(OverdueReminder, id, store', true);
    assert s4.next == None && s4.store == store';
  }

  /**
    A booking that is not ONGOING when its return date arrives (say it was
    checked in) stops after the overdue handler: two jobs, table untouched.
   */
  lemma {:induction false} NotOngoingStopsAtOverdueHandler(id: Id, store: Store)
    requires id in store && store[id].status != ONGOING && store[id].to.Some?
    ensures var T := store[id].to.value;
            RunChain(CheckoutReminder, id, store).0 == [Job(CheckinReminder, id, T - Hour), Job(OverdueHandler, id, T)]
    ensures RunChain(CheckoutReminder, id, store).2 == store
  {
    var T := store[id].to.value;
    assert Step(CheckoutReminder, id, store, true).next == Some(Job(CheckinReminder, id, T - Hour));
    assert Step(CheckinReminder, id, store, true).next == Some(Job(OverdueHandler, id, T));
    assert Step(OverdueHandler, id, store, true) == Skip(store);
  }

  /** Without a return date nothing after the first handler is ever scheduled. */
  lemma NoReturnDateNoSuccessor(stage: Stage, id: Id, store: Store, mailerUp: bool)
    requires id in store && store[id].to.None?
    ensures Step(stage, id, store, mailerUp).next == None
  {
  }
}

=== FILE: search_tokens.dfy ===
/**
  The full-text search string the asset search view is queried with. The
  user's text has the query operators `()&|!'<>` backslash-escaped, is
  trimmed, has runs of spaces collapsed, is split on spaces, and every
  piece becomes a prefix-match token `piece:*`; the tokens are joined with
  ` & `. Only the string is modelled, not what the database does with it.
 */
module SearchTokens {
  import opened Domain

  /** The characters that are operators of the text-search query syntax. */
  predicate IsSpecial(c: char) {
    c == '(' || c == ')' || c == '&' || c == '|' || c == '!' || c == '\'' || c == '<' || c == '>'
  }

  /** Puts a backslash in front of every special character. */
  function Escape(s: string): (r: string)
    ensures |r| >= |s|
    ensures forall i :: 0 <= i < |r| && IsSpecial(r[i]) ==> i > 0 && r[i - 1] == '\\'
    ensures (forall i :: 0 <= i < |s| ==> !IsSpecial(s[i])) ==> r == s
  {
    if |s| == 0 then ""
    else if IsSpecial(s[0]) then ['\\', s[0]] + Escape(s[1..])
    else [s[0]] + Escape(s[1..])
  }

  /** Removes the backslash in front of every special character. */
  function Unescape(s: string): string {
    if |s| == 0 then ""
    else if |s| >= 2 && s[0] == '\\' && IsSpecial(s[1]) then [s[1]] + Unescape(s[2..])
    else [s[0]] + Unescape(s[1..])
  }

  /** Escaping loses nothing: unescaping gives the text back. */
  lemma {:induction false} UnescapeEscape(s: string)
    ensures Unescape(Escape(s)) == s
  {
    if |s| > 0 {
      UnescapeEscape(s[1..]);
      if IsSpecial(s[0]) {
        assert (['\\', s[0]] + Escape(s[1..]))[2..] == Escape(s[1..]);
      } else {
        var e := Escape(s[1..]);
        assert ([s[0]] + e)[1..] == e;
        assert |e| > 0 ==> !IsSpecial(e[0]);
      }
    }
  }

  /** `s` without its leading spaces. */
  function DropSpaces(s: string): (r: string)
    ensures |r| <= |s| && r == s[|s| - |r|..]
    ensures |r| > 0 ==> r[0] != ' '
    ensures forall i :: 0 <= i < |s| - |r| ==> s[i] == ' '
  {
    if |s| > 0 && s[0] == ' ' then
      var r := DropSpaces(s[1..]);
      assert s[1..][|s| - 1 - |r|..] == s[|s| - |r|..];
      assert forall i :: 1 <= i < |s| - |r| ==> s[i] == s[1..][i - 1];
      r
    else s
  }

  /** `s` with every character other than a space, in order. */
  function NonSpaces(s: string): string {
    if |s| == 0 then ""
    else if s[0] == ' ' then NonSpaces(s[1..])
    else [s[0]] + NonSpaces(s[1..])
  }

  lemma {:induction false} NonSpacesDropSpaces(s: string)
    ensures NonSpaces(DropSpaces(s)) == NonSpaces(s)
  {
    if |s| > 0 && s[0] == ' ' {
      NonSpacesDropSpaces(s[1..]);
    }
  }

  /** No two spaces in a row. */
  predicate NoDoubleSpace(s: string) {
    forall i :: 0 <= i < |s| - 1 ==> !(s[i] == ' ' && s[i + 1] == ' ')
  }

  /** `replace(/ +/g, " ")`: every run of spaces becomes one space. */
  function CollapseSpaces(s: string): (r: string)
    ensures |r| <= |s|
    ensures |s| > 0 ==> |r| > 0 && r[0] == s[0]
    ensures NoDoubleSpace(r)
    ensures |r| > 0 && |s| > 0 ==> r[|r| - 1] == s[|s| - 1]
    decreases |s|
  {
    if |s| == 0 then ""
    else if s[0] == ' ' then
      var t := DropSpaces(s[1..]);
      " " + CollapseSpaces(t)
    else [s[0]] + CollapseSpaces(s[1..])
  }

  /** Collapsing keeps every other character, in order. */
  lemma {:induction false} CollapseKeepsText(s: string)
    ensures NonSpaces(CollapseSpaces(s)) == NonSpaces(s)
    decreases |s|
  {
    if |s| > 0 {
      if s[0] == ' ' {
        var t := DropSpaces(s[1..]);
        CollapseKeepsText(t);
        NonSpacesDropSpaces(s[1..]);
      } else {
        CollapseKeepsText(s[1..]);
      }
    }
  }

  /** A string that has no two spaces in a row is left as it is. */
  lemma {:induction false} CollapseIdentity(s: string)
    requires NoDoubleSpace(s)
    ensures CollapseSpaces(s) == s
    decreases |s|
  {
    if |s| > 0 {
      CollapseIdentity(s[1..]);
      if s[0] == ' ' {
        assert DropSpaces(s[1..]) == s[1..];
      }
    }
  }

  /** `split(c)`: the pieces between occurrences of `c`; at least one, possibly empty. */
  function Split(s: string, c: char): (r: seq<string>)
    ensures |r| >= 1
    ensures forall i :: 0 <= i < |r| ==> c !in r[i]
    decreases |s|
  {
    if |s| == 0 then [""]
    else
      var rest := Split(s[1..], c);
      if s[0] == c then [""] + rest
      else [[s[0]] + rest[0]] + rest[1..]
  }

  /** `join(c)` for a one-character separator. */
  function Join(ps: seq<string>, c: char): string
    requires |ps| >= 1
  {
    if |ps| == 1 then ps[0] else ps[0] + [c] + Join(ps[1..], c)
  }

  /** Splitting then joining gives back the string. */
  lemma {:induction false} JoinSplit(s: string, c: char)
    ensures Join(Split(s, c), c) == s
    decreases |s|
  {
    if |s| > 0 {
      JoinSplit(s[1..], c);
      var rest := Split(s[1..], c);
      if s[0] != c {
        if |rest| == 1 {
          assert Join(Split(s, c), c) == [s[0]] + rest[0];
        } else {
          assert Split(s, c)[1..] == rest[1..];
          assert Join(Split(s, c), c) == [s[0]] + rest[0] + [c] + Join(rest[1..], c);
        }
      }
    }
  }

  lemma {:induction false} SplitPrefix(p: string, t: string, c: char)
    requires c !in p
    ensures Split(p + t, c) == [p + Split(t, c)[0]] + Split(t, c)[1..]
    decreases |p|
  {
    if |p| > 0 {
      assert (p + t)[1..] == p[1..] + t;
      SplitPrefix(p[1..], t, c);
      assert [p[0]] + (p[1..] + Split(t, c)[0]) == p + Split(t, c)[0];
    } else {
      var st := Split(t, c);
      assert p + t == t;
      assert p + st[0] == st[0];
      assert [st[0]] + st[1..] == st;
    }
  }

  /** Joining pieces that do not contain the separator, then splitting, gives the pieces back. */
  lemma {:induction false} SplitJoin(ps: seq<string>, c: char)
    requires |ps| >= 1
    requires forall i :: 0 <= i < |ps| ==> c !in ps[i]
    ensures Split(Join(ps, c), c) == ps
  {
    if |ps| == 1 {
      SplitPrefix(ps[0], "", c);
      assert ps[0] + "" == ps[0];
    } else {
      SplitJoin(ps[1..], c);
      var t := [c] + Join(ps[1..], c);
      assert Join(ps, c) == ps[0] + t;
      SplitPrefix(ps[0], t, c);
      assert t[1..] == Join(ps[1..], c);
      assert Split(t, c) == [""] + ps[1..];
      assert ps[0] + "" == ps[0];
    }
  }

  /** `join(sep)` for a separator string: it starts with the first piece and ends with the last. */
  function JoinWith(ps: seq<string>, sep: string): (r: string)
    ensures |ps| == 0 ==> r == ""
    ensures |ps| >= 1 ==> ps[0] <= r
    ensures |ps| >= 1 ==> |ps[|ps| - 1]| <= |r| && r[|r| - |ps[|ps| - 1]|..] == ps[|ps| - 1]
  {
    if |ps| == 0 then ""
    else if |ps| == 1 then ps[0]
    else
      var rest := JoinWith(ps[1..], sep);
      var r := ps[0] + sep + rest;
      assert ps[1..][|ps| - 2] == ps[|ps| - 1];
      assert r[|r| - |rest|..] == rest;
      r
  }

  /** Joining with a one-character separator string is `Join` with that character. */
  lemma {:induction false} JoinWithIsJoin(ps: seq<string>, c: char)
    requires |ps| >= 1
    ensures JoinWith(ps, [c]) == Join(ps, c)
  {
    if |ps| > 1 {
      JoinWithIsJoin(ps[1..], c);
    }
  }

  /** Splitting a join of separator-free pieces gives the pieces back, for a one-character separator string too. */
  lemma SplitJoinWith(ps: seq<string>, c: char)
    requires |ps| >= 1
    requires forall i :: 0 <= i < |ps| ==> c !in ps[i]
    ensures Split(JoinWith(ps, [c]), c) == ps
  {
    JoinWithIsJoin(ps, c);
    SplitJoin(ps, c);
  }

  /** The tokens, before they are joined. */
  function Tokens(search: string): (r: seq<string>)
    ensures |r| >= 1
    ensures forall i :: 0 <= i < |r| ==> |r[i]| >= 2 && r[i][|r[i]| - 2..] == ":*"
    ensures forall i :: 0 <= i < |r| ==> ' ' !in r[i]
  {
    TokensOf(Split(CollapseSpaces(Trim(Escape(search))), ' '))
  }

  /** `.map((w) => w.trim() + ":*")` over pieces that hold no space. */
  function TokensOf(pieces: seq<string>): (r: seq<string>)
    requires forall i :: 0 <= i < |pieces| ==> ' ' !in pieces[i]
    ensures |r| == |pieces|
    ensures forall i :: 0 <= i < |r| ==> r[i] == TrimPiece(pieces[i]) + ":*"
    ensures forall i :: 0 <= i < |r| ==> |r[i]| >= 2 && r[i][|r[i]| - 2..] == ":*"
    ensures forall i :: 0 <= i < |r| ==> ' ' !in r[i]
  {
    seq(|pieces|, i requires 0 <= i < |pieces| => Token(pieces[i]))
  }

  /** One prefix-match token. */
  function Token(w: string): (r: string)
    requires ' ' !in w
    ensures r == TrimPiece(w) + ":*"
    ensures |r| >= 2 && r[|r| - 2..] == ":*" && ' ' !in r
  {
    var t := TrimPiece(w);
    assert (t + ":*")[|t|..] == ":*";
    t + ":*"
  }

  /** `w.trim()` of a piece that holds no space. */
  function TrimPiece(w: string): (r: string)
    requires ' ' !in w
    ensures ' ' !in r
  {
    var r := Trim(w);
    TrimIsInfix(w);
    r
  }

  lemma TrimIsInfix(w: string)
    ensures forall c :: c in Trim(w) ==> c in w
  {
    var r := Trim(w);
    var k :| TrimmedAt(w, r, k);
    forall c | c in r ensures c in w {
      var i :| 0 <= i < |r| && r[i] == c;
      assert w[k + i] == c;
    }
  }

  /**
    The search string handed to the full-text index: the tokens joined by
    ` & `. It starts with the first token and ends with `:*`. The code's
    `.filter(Boolean)` before the join keeps every token, none being empty.
   */
  function SearchQuery(search: string): (r: string)
    ensures |r| >= 2 && r[|r| - 2..] == ":*"
  {
    var ts := Tokens(search);
    JoinedTokensEnd(ts, " & ");
    JoinWith(ts, " & ")
  }

  /** Tokens joined by any separator end the way the last token does, with `:*`. */
  lemma JoinedTokensEnd(ts: seq<string>, sep: string)
    requires |ts| >= 1
    requires forall i :: 0 <= i < |ts| ==> |ts[i]| >= 2 && ts[i][|ts[i]| - 2..] == ":*"
    ensures |JoinWith(ts, sep)| >= 2 && JoinWith(ts, sep)[|JoinWith(ts, sep)| - 2..] == ":*"
  {
    var r := JoinWith(ts, sep);
    var last := ts[|ts| - 1];
    assert r[|r| - |last|..] == last;
    assert r[|r| - 2..] == last[|last| - 2..];
  }

  /** A word as a user types it: non-empty, no whitespace, no operator characters. */
  predicate IsPlainWord(w: string) {
    |w| > 0 && forall i :: 0 <= i < |w| ==> !IsJsWhitespace(w[i]) && !IsSpecial(w[i])
  }

  /**
    Plain words separated by single spaces become one prefix token each, in
    order: `Tokens("drill bit") == ["drill:*", "bit:*"]`.
   */
  lemma {:induction false} PlainWordsBecomeTokens(words: seq<string>)
    requires |words| >= 1
    requires forall i :: 0 <= i < |words| ==> IsPlainWord(words[i])
    ensures Tokens(Join(words, ' ')) == seq(|words|, i requires 0 <= i < |words| => words[i] + ":*")
  {
    var s := Join(words, ' ');
    forall i | 0 <= i < |words| ensures ' ' !in words[i] && TrimPiece(words[i]) == words[i] {
      PlainWordTrimmed(words[i]);
    }
    assert Trim(Escape(s)) == s by {
      PlainJoinFacts(words);
      assert Escape(s) == s;
      assert TrimStart(s) == s;
      assert TrimEnd(s) == s;
    }
    assert Split(CollapseSpaces(s), ' ') == words by {
      PlainJoinFacts(words);
      CollapseIdentity(s);
      SplitJoin(words, ' ');
    }
    TokensThrough(s, s, words);
  }

  lemma PlainWordTrimmed(w: string)
    requires IsPlainWord(w)
    ensures ' ' !in w && Trim(w) == w
  {
    assert TrimStart(w) == w;
    assert TrimEnd(w) == w;
  }

  /** A run of `n` spaces. */
  function Spaces(n: nat): (r: string)
    ensures |r| == n && forall i :: 0 <= i < n ==> r[i] == ' '
  {
    seq(n, _ => ' ')
  }

  /** The words with the `i`-th run of `gaps[i]` spaces between word `i` and word `i + 1`. */
  function Spaced(words: seq<string>, gaps: seq<nat>): string
    requires |words| >= 1 && |gaps| == |words| - 1
  {
    if |words| == 1 then words[0] else words[0] + Spaces(gaps[0]) + Spaced(words[1..], gaps[1..])
  }

  /** Collapsing passes over a word that holds no space. */
  lemma {:induction false} CollapseWord(w: string, rest: string)
    requires ' ' !in w
    ensures CollapseSpaces(w + rest) == w + CollapseSpaces(rest)
    decreases |w|
  {
    if |w| > 0 {
      assert (w + rest)[0] == w[0];
      assert (w + rest)[1..] == w[1..] + rest;
      CollapseWord(w[1..], rest);
      assert w == [w[0]] + w[1..];
    } else {
      assert w + rest == rest;
    }
  }

  lemma {:induction false} DropSpacesRun(n: nat, rest: string)
    requires |rest| > 0 ==> rest[0] != ' '
    ensures DropSpaces(Spaces(n) + rest) == rest
    decreases n
  {
    if n > 0 {
      assert (Spaces(n) + rest)[1..] == Spaces(n - 1) + rest;
      DropSpacesRun(n - 1, rest);
    } else {
      assert Spaces(n) + rest == rest;
    }
  }

  /** A run of one or more spaces collapses to one space. */
  lemma {:induction false} CollapseRun(n: nat, rest: string)
    requires n >= 1
    requires |rest| > 0 ==> rest[0] != ' '
    ensures CollapseSpaces(Spaces(n) + rest) == " " + CollapseSpaces(rest)
  {
    var t := Spaces(n) + rest;
    assert t[0] == ' ';
    assert t[1..] == Spaces(n - 1) + rest;
    DropSpacesRun(n - 1, rest);
  }

  /** Words that hold no space and are not empty. */
  predicate SpaceFreeWords(words: seq<string>) {
    forall i :: 0 <= i < |words| ==> |words[i]| > 0 && ' ' !in words[i]
  }

  lemma SpacedStart(words: seq<string>, gaps: seq<nat>)
    requires |words| >= 1 && |gaps| == |words| - 1 && |words[0]| > 0
    ensures |Spaced(words, gaps)| > 0 && Spaced(words, gaps)[0] == words[0][0]
  {
  }

  /** Text spaced from plain words holds no operator and starts and ends with a word character. */
  lemma {:induction false} SpacedPlain(words: seq<string>, gaps: seq<nat>)
    requires |words| >= 1 && |gaps| == |words| - 1
    requires forall i :: 0 <= i < |words| ==> IsPlainWord(words[i])
    ensures var x := Spaced(words, gaps);
            && |x| > 0 && !IsJsWhitespace(x[0]) && !IsJsWhitespace(x[|x| - 1])
            && forall i :: 0 <= i < |x| ==> !IsSpecial(x[i])
  {
    assert IsPlainWord(words[0]);
    if |words| > 1 {
      var rest := Spaced(words[1..], gaps[1..]);
      assert |rest| > 0 && !IsJsWhitespace(rest[|rest| - 1])
                              && forall i :: 0 <= i < |rest| ==> !IsSpecial(rest[i]) by {
        assert forall i :: 0 <= i < |words[1..]| ==> IsPlainWord(words[1..][i]);
        SpacedPlain(words[1..], gaps[1..]);
      }
      var w := words[0];
      var x := w + Spaces(gaps[0]) + rest;
      assert Spaced(words, gaps) == x;
      forall i | 0 <= i < |x| ensures !IsSpecial(x[i]) {
        if i >= |w| + gaps[0] {
          assert x[i] == rest[i - |w| - gaps[0]];
        } else if i < |w| {
          assert x[i] == w[i];
        }
      }
      assert x[|x| - 1] == rest[|rest| - 1];
    }
  }

  /**
    Collapsing spaced words gives the words joined by single spaces: every
    run of one or more spaces between two words becomes exactly one space.
   */
  lemma {:induction false} CollapseSpaced(words: seq<string>, gaps: seq<nat>)
    requires |words| >= 1 && |gaps| == |words| - 1
    requires SpaceFreeWords(words)
    requires forall i :: 0 <= i < |gaps| ==> gaps[i] >= 1
    ensures CollapseSpaces(Spaced(words, gaps)) == Join(words, ' ')
  {
    if |words| == 1 {
      CollapseWord(words[0], "");
      assert words[0] + "" == words[0];
    } else {
      var rest := Spaced(words[1..], gaps[1..]);
      assert SpaceFreeWords(words[1..]) by {
        forall i | 0 <= i < |words[1..]| ensures |words[1..][i]| > 0 && ' ' !in words[1..][i] {
          assert words[1..][i] == words[i + 1];
        }
      }
      CollapseSpaced(words[1..], gaps[1..]);
      SpacedStart(words[1..], gaps[1..]);
      CollapseWordThenRun(words[0], gaps[0], rest);
      assert Spaced(words, gaps) == words[0] + Spaces(gaps[0]) + rest;
      assert Join(words, ' ') == words[0] + " " + Join(words[1..], ' ');
    }
  }

  /** A word, then a run of spaces: the run becomes one space. */
  lemma {:induction false} CollapseWordThenRun(w: string, n: nat, rest: string)
    requires ' ' !in w && n >= 1
    requires |rest| > 0 ==> rest[0] != ' '
    ensures CollapseSpaces(w + Spaces(n) + rest) == w + " " + CollapseSpaces(rest)
    decreases |w|
  {
    var x := w + Spaces(n) + rest;
    var c := CollapseSpaces(rest);
    if |w| == 0 {
      assert CollapseSpaces(x) == " " + c by {
        assert x == Spaces(n) + rest;
        CollapseRun(n, rest);
      }
      assert w + " " + c == " " + c;
    } else {
      assert CollapseSpaces(x[1..]) == w[1..] + " " + c by {
        assert x[1..] == w[1..] + Spaces(n) + rest;
        CollapseWordThenRun(w[1..], n, rest);
      }
      assert CollapseSpaces(x) == [w[0]] + CollapseSpaces(x[1..]) by {
        assert x[0] == w[0];
      }
      assert [w[0]] + (w[1..] + " " + c) == w + " " + c;
    }
  }

  /**
    Plain words separated by runs of one or more spaces, with any spaces
    before and after, become one prefix token each, in order:
    `Tokens("  drill   bit ") == ["drill:*", "bit:*"]`.
   */
  lemma {:induction false} SpacedWordsBecomeTokens(words: seq<string>, gaps: seq<nat>, lead: nat, trail: nat)
    requires |words| >= 1 && |gaps| == |words| - 1
    requires forall i :: 0 <= i < |words| ==> IsPlainWord(words[i])
    requires forall i :: 0 <= i < |gaps| ==> gaps[i] >= 1
    ensures Tokens(Spaces(lead) + Spaced(words, gaps) + Spaces(trail))
            == seq(|words|, i requires 0 <= i < |words| => words[i] + ":*")
  {
    forall i | 0 <= i < |words| ensures |words[i]| > 0 && ' ' !in words[i] && TrimPiece(words[i]) == words[i] {
      PlainWordTrimmed(words[i]);
    }
    var x := Spaced(words, gaps);
    var s := Spaces(lead) + x + Spaces(trail);
    PaddedSpacedText(words, gaps, lead, trail);
    CollapseSpaced(words, gaps);
    SplitJoin(words, ' ');
    TokensThrough(s, x, words);
  }

  /** The tokens of a search whose escaped and trimmed text is `x`, and whose collapsed `x` splits into `pieces`. */
  lemma TokensThrough(s: string, x: string, pieces: seq<string>)
    requires Trim(Escape(s)) == x
    requires Split(CollapseSpaces(x), ' ') == pieces
    requires forall i :: 0 <= i < |pieces| ==> TrimPiece(pieces[i]) == pieces[i]
    ensures Tokens(s) == seq(|pieces|, i requires 0 <= i < |pieces| => pieces[i] + ":*")
  {
  }

  /** Padded spaced plain words need no escaping, and trimming drops exactly the padding. */
  lemma {:induction false} PaddedSpacedText(words: seq<string>, gaps: seq<nat>, lead: nat, trail: nat)
    requires |words| >= 1 && |gaps| == |words| - 1
    requires forall i :: 0 <= i < |words| ==> IsPlainWord(words[i])
    ensures var s := Spaces(lead) + Spaced(words, gaps) + Spaces(trail);
            Escape(s) == s && Trim(s) == Spaced(words, gaps)
  {
    var x := Spaced(words, gaps);
    var s := Spaces(lead) + x + Spaces(trail);
    SpacedPlain(words, gaps);
    forall i | 0 <= i < |s| ensures !IsSpecial(s[i]) {
      if lead <= i < lead + |x| {
        assert s[i] == x[i - lead];
      }
    }
    assert Escape(s) == s;
    TrimPadded(Spaces(lead), x, Spaces(trail));
  }

  /** What a join of plain words looks like character by character. */
  lemma {:induction false} PlainJoinFacts(words: seq<string>)
    requires |words| >= 1
    requires forall i :: 0 <= i < |words| ==> IsPlainWord(words[i])
    ensures var s := Join(words, ' ');
            && |s| > 0 && !IsJsWhitespace(s[0]) && !IsJsWhitespace(s[|s| - 1])
            && (forall i :: 0 <= i < |s| ==> !IsSpecial(s[i]))
            && NoDoubleSpace(s)
            && (forall i :: 0 <= i < |s| ==> !IsJsWhitespace(s[i]) || s[i] == ' ')
  {
    var w := words[0];
    if |words| > 1 {
      PlainJoinFacts(words[1..]);
      var rest := Join(words[1..], ' ');
      var s := w + [' '] + rest;
      assert Join(words, ' ') == s;
      forall i | 0 <= i < |s| - 1 ensures !(s[i] == ' ' && s[i + 1] == ' ') {
        if i < |w| - 1 {
        } else if i == |w| - 1 {
        } else if i == |w| {
          assert s[i + 1] == rest[0];
        } else {
          assert s[i] == rest[i - |w| - 1] && s[i + 1] == rest[i - |w|];
        }
      }
      forall i | 0 <= i < |s| ensures !IsSpecial(s[i]) && (!IsJsWhitespace(s[i]) || s[i] == ' ') {
        if i > |w| {
          assert s[i] == rest[i - |w| - 1];
        }
      }
      assert s[|s| - 1] == rest[|rest| - 1];
    }
  }

  /** Plain words typed with single spaces become the query of their prefix tokens, AND-ed together. */
  lemma PlainWordsQuery(words: seq<string>)
    requires |words| >= 1
    requires forall i :: 0 <= i < |words| ==> IsPlainWord(words[i])
    ensures SearchQuery(Join(words, ' ')) == JoinWith(seq(|words|, i requires 0 <= i < |words| => words[i] + ":*"), " & ")
  {
    PlainWordsBecomeTokens(words);
  }

  /** Plain words separated by runs of spaces, with any padding, become the same query. */
  lemma SpacedWordsQuery(words: seq<string>, gaps: seq<nat>, lead: nat, trail: nat)
    requires |words| >= 1 && |gaps| == |words| - 1
    requires forall i :: 0 <= i < |words| ==> IsPlainWord(words[i])
    requires forall i :: 0 <= i < |gaps| ==> gaps[i] >= 1
    ensures SearchQuery(Spaces(lead) + Spaced(words, gaps) + Spaces(trail))
            == JoinWith(seq(|words|, i requires 0 <= i < |words| => words[i] + ":*"), " & ")
  {
    SpacedWordsBecomeTokens(words, gaps, lead, trail);
  }
}

=== FILE: status_filter.dfy ===
/**
  The status filter of the bookings list: its options, its default value,
  and how choosing a value rewrites the page's search params.
 */
module StatusFilter {
  import opened Domain

  /** Search params as an ordered list of name/value pairs, repeats allowed. */
  type Params = seq<(string, string)>

  const StatusKey: string := "status"
  const All: string := "ALL"

  /** `params.get(key)`: the value of the first pair with that name. */
  function Get(params: Params, key: string): (r: Option<string>)
    ensures r.None? <==> forall i :: 0 <= i < |params| ==> params[i].0 != key
    ensures r.Some? ==> (key, r.value) in params
    ensures forall i :: (0 <= i < |params| && params[i].0 == key &&
                         (forall j :: 0 <= j < i ==> params[j].0 != key)) ==> r == Some(params[i].1)
  {
    if |params| == 0 then None
    else if params[0].0 == key then Some(params[0].1)
    else Get(params[1..], key)
  }

  /** `params.delete(key)`: every pair with that name goes, the rest keep their order. */
  function Delete(params: Params, key: string): (r: Params)
    ensures forall p :: p in r <==> p in params && p.0 != key
    ensures |r| <= |params|
  {
    if |params| == 0 then []
    else if params[0].0 == key then Delete(params[1..], key)
    else [params[0]] + Delete(params[1..], key)
  }

  /**
    `params.set(key, value)`: the first pair with that name takes the value
    and later ones go; with no such pair, the pair is appended.
   */
  function Set(params: Params, key: string, value: string): (r: Params)
    ensures Get(r, key) == Some(value)
    ensures forall p :: p in r && p.0 == key ==> p.1 == value
  {
    if |params| == 0 then [(key, value)]
    else if params[0].0 == key then [(key, value)] + Delete(params[1..], key)
    else [params[0]] + Set(params[1..], key, value)
  }

  lemma {:induction false} DeleteIdempotent(params: Params, key: string)
    ensures Delete(Delete(params, key), key) == Delete(params, key)
  {
    if |params| > 0 {
      DeleteIdempotent(params[1..], key);
    }
  }

  /** Setting a param leaves the pairs of every other name as they were, in order. */
  lemma {:induction false} SetKeepsOthers(params: Params, key: string, value: string)
    ensures Delete(Set(params, key, value), key) == Delete(params, key)
  {
    if |params| == 0 {
    } else if params[0].0 == key {
      DeleteIdempotent(params[1..], key);
    } else {
      SetKeepsOthers(params[1..], key, value);
    }
  }

  /**
    `handleValueChange`: "ALL" removes the status param, any other value
    becomes the status; the other params are kept as they were.
   */
  function HandleValueChange(params: Params, value: string): (r: Params)
    ensures value == All ==> Get(r, StatusKey).None?
    ensures value != All ==> Get(r, StatusKey) == Some(value)
    ensures Delete(r, StatusKey) == Delete(params, StatusKey)
  {
    if value == All then
      DeleteIdempotent(params, StatusKey);
      Delete(params, StatusKey)
    else
      SetKeepsOthers(params, StatusKey, value);
      Set(params, StatusKey, value)
  }

  /** The options: "ALL", then every booking status. */
  function Options(): (r: seq<string>)
    ensures |r| == 1 + |AllBookingStatuses| && r[0] == All
    ensures forall k :: 0 <= k < |AllBookingStatuses| ==> r[k + 1] == BookingStatusName(AllBookingStatuses[k])
  {
    [All] + seq(|AllBookingStatuses|, k requires 0 <= k < |AllBookingStatuses| => BookingStatusName(AllBookingStatuses[k]))
  }

  /** Every status can be chosen, and "ALL" is not a status. */
  lemma OptionsCoverStatuses(s: BookingStatus)
    ensures BookingStatusName(s) in Options()[1..]
    ensures All !in Options()[1..]
  {
    var k := match s
      case DRAFT => 0 case RESERVED => 1 case ONGOING => 2 case OVERDUE => 3
      case COMPLETE => 4 case ARCHIVED => 5 case CANCELLED => 6;
    assert AllBookingStatuses[k] == s;
    assert Options()[1..][k] == BookingStatusName(s);
  }

  /** The value shown first: the current status, or "ALL" when there is none or it is empty. */
  function DefaultValue(params: Params): (r: string)
    ensures Get(params, StatusKey).None? ==> r == All
    ensures Get(params, StatusKey) == Some("") ==> r == All
    ensures Get(params, StatusKey).Some? && Get(params, StatusKey).value != "" ==> r == Get(params, StatusKey).value
  {
    var status := Get(params, StatusKey);
    if status.Some? && status.value != "" then status.value else All
  }

  /** Choosing a status shows it as the selection afterwards; choosing "ALL" shows "ALL". */
  lemma ChosenValueBecomesDefault(params: Params, value: string)
    requires value != ""
    ensures DefaultValue(HandleValueChange(params, value)) == value
  {
  }
}
